=== FILE: README.md ===
# erigon_db_reader: the log extraction pipeline, in Dafny

This project models how erigon_db_reader extracts event logs for one job and
proves properties of that model. A job is a block range `[from_block, to_block]`
with an optional contract filter. The model covers its two sequential parts.

- **The scan and batch loop of `SearchEngine::execute_job`.**
  - It seeks the ordered `TransactionLog` table with the 8-byte big-endian key of `from_block`.
  - It passes over entries whose value is empty.
  - For each other entry it reads the block number from key bytes 0..8 and the transaction index from bytes 8..12.
  - It stops at the first non-empty entry past `to_block`.
  - It decodes and filters the entry's logs, then appends one `(block, tx, log)` row per kept log to a buffer.
  - It sends the buffer as a chunk whenever it holds more than `LOG_CHUNK_SIZE` (10 000) rows.
  - After the loop it sends any remaining rows, then the `None` terminator.
- **The result writer of `ResultStorage::open_writer`.**
  - It receives messages until the first `None`.
  - It turns each chunk into nine parallel columns: `block_n`, `tx_n`, `contract`, `op_code`, `topic0`..`topic3` and `data`.
  - Optional columns are built by `save_topic` and `save_binary`. Each gets definition levels (1 = present, 0 = null) and an empty placeholder value for every null.
  - It writes one row group per chunk.

Modules, one per file:

| file | module | contents |
|---|---|---|
| wrappers.dfy | `Wrappers` | `Option` |
| bigendian.dfy | `BigEndian` | bytes, the big-endian codec of `byteorder` (`write_u64`, `read_u64`, `read_u32`), the store's byte-wise key order |
| types.dfy | `Types` | `KvLog`, rows, `LogChunk`, channel messages and what the writer receives of them |
| engine.dfy | `Engine` | the seek, the scan loop (a generic loop `Run` over a loop body, instantiated with the job's body `StepEntry`), the batcher and `ExecuteJob` |
| parquet.dfy | `Parquet` | optional columns with definition levels and what Parquet's `write_batch` stores for them |
| storage.dfy | `Storage` | the casts, `save_topic`, `save_binary`, the per-row loop, row groups and the receive loop |
| pipeline.dfy | `Pipeline` | one job end to end: the scanner's messages drained by the writer |
| scenario.dfy | `Scenario` | a six-block table scanned with three jobs |

Behaviour of the code a reader might not expect. The model follows the code.

- The value-emptiness test comes before the key is decoded (src/engine/mod.rs:80-81). An empty entry past `to_block` therefore does not stop the scan; it is passed over like any other empty entry.
- A key of 8 to 11 bytes whose block lies past `to_block` ends the scan cleanly, because the loop breaks before `read_u32` runs. It is a failure only when the block is in range. A non-empty entry whose key is shorter than 8 bytes is always a failure.
- The seek key is 8 bytes, not the 12-byte key of `(from_block, 0)`. In a table whose keys all have the 12-byte format, both seeks land on the same entry (`Engine.SeekIndexMatchesEntryKey`). For shorter keys they can differ: an 8-byte key of block `from_block` is reached by the 8-byte seek but sorts below the 12-byte key (`Engine.ShortKeySeeksDiffer`).
- `op_code` is the full topic count cast to `i32`, not a number capped at 4. Only the first four topics are stored.
- Rows are in non-decreasing `(block, tx)` order, not strictly increasing: one entry's logs share a key.
- A failing entry (a short key, a payload that does not decode) panics inside `execute_job`. The model turns this into a failure outcome. The chunks already sent stay sent and the buffered rows are lost. No terminator is sent, but the writer still stops: its channel closes when the sender is dropped, and it then closes the file.

## Model

| member | source | states |
|---|---|---|
| BigEndian.Encode | src/engine/mod.rs:65 | `write_u64`: the encoding has the requested width and decodes back to the number |
| BigEndian.EncodeDecode | src/engine/mod.rs:65 | decoding a byte string and re-encoding it at the same width gives the same bytes back |
| BigEndian.DecodeInjective | src/engine/mod.rs:81 | two byte strings of one width with the same value are equal |
| BigEndian.ReadU64 | src/engine/mod.rs:81 | `read_u64` of key bytes 0..8: the block number, a value in the `u64` range (`BigEndian.ReadU64Decode` ties it to the big-endian decoding) |
| BigEndian.ReadU32 | src/engine/mod.rs:85 | `read_u32` of key bytes 8..12: the transaction index, a value in the `u32` range (`BigEndian.ReadU32Decode` ties it to the big-endian decoding) |
| BigEndian.ReadU64Decode | src/engine/mod.rs:81 | `read_u64` reads the first eight bytes as a big-endian number |
| BigEndian.ReadU32Decode | src/engine/mod.rs:85 | `read_u32` reads the first four bytes as a big-endian number |
| BigEndian.DecodeMonotone | src/engine/mod.rs:74 | for byte strings of one width, the store's byte order and numeric order agree, in both directions |
| BigEndian.LexLessTransitive | src/engine/mod.rs:74 | the store's key order is transitive |
| BigEndian.LexLessIrreflexive | src/engine/mod.rs:74 | no key sorts before itself |
| Engine.SeekKey | src/engine/mod.rs:62-65 | the seek key is 8 bytes long and encodes `from_block` |
| Engine.SeekKeyReadsBack | src/engine/mod.rs:81 | reading the block number back from the seek key gives `from_block` |
| Engine.EntryKeyReadsBack | src/engine/mod.rs:81-85 | a table key built from a block and a transaction index reads back as that block and index |
| Engine.SeekIndex | src/engine/mod.rs:74 | the cursor starts at the first entry whose key is not below the seek key; every earlier key is below it |
| Engine.SeekKeyOrder | src/engine/mod.rs:65-81 | a key of at least 8 bytes sorts below the seek key exactly when its block number is below `from_block` |
| Engine.SeekKeyMatchesEntryKey | src/engine/mod.rs:62-65 | on keys of at least 12 bytes, the 8-byte seek key and the 12-byte key of `(from_block, 0)` order alike: a key sorts below either exactly when its block is below `from_block` |
| Engine.SeekIndexMatchesEntryKey | src/engine/mod.rs:62-74 | in a table of keys of at least 12 bytes, the cursor lands on the same entry with either seek key |
| Engine.ShortKeySeeksDiffer | src/engine/mod.rs:62-74 | the 8-byte key of block `from_block` is not below the 8-byte seek key but is below the 12-byte key of `(from_block, 0)` |
| BigEndian.LexLessZeroPadded | src/engine/mod.rs:74 | padding a bound with zero bytes does not move it among keys long enough to reach the padding |
| BigEndian.ProperPrefixBelow | src/engine/mod.rs:74 | a proper prefix sorts before the longer key |
| Engine.SeekSkipsOnlyLowerKeys | src/engine/mod.rs:74 | in a sorted table, no entry from the cursor's start on sorts below the seek key |
| Engine.KeepAddress | src/engine/mod.rs:90 | `retain` by address: it never adds logs, and every log it keeps has the filter's address |
| Engine.KeepAddressCounts | src/engine/mod.rs:88-91 | `retain` keeps each log of the filter's address as often as it occurs and drops every other log |
| Engine.KeepAddressConcat | src/engine/mod.rs:88-91 | `retain` keeps the logs' order: filtering a concatenation concatenates the filtered parts, and a single log is kept exactly when its address is the filter |
| Engine.Retain | src/engine/mod.rs:88-91 | without a filter the logs are unchanged; with one, a log is kept exactly when it occurs and matches the filter |
| Engine.RowsOfMembers | src/engine/mod.rs:95-96 | a row is among an entry's rows exactly when it carries the entry's block and transaction index and one of its kept logs |
| Engine.RowsOfConcat | src/engine/mod.rs:95-96 | the rows of concatenated logs are the concatenated rows, so each log keeps its place |
| Engine.StepEntry | src/engine/mod.rs:78-106 | the loop body, in the source's order of checks: an entry is passed over exactly when its value is empty; it breaks exactly when it is non-empty with at least 8 key bytes and its block lies past `to_block`; it panics exactly when it is non-empty and has fewer than 8 key bytes, or is in range and has fewer than 12 key bytes or a payload that does not decode; otherwise it yields the rows of its kept logs |
| Engine.Run | src/engine/mod.rs:62-107 | the `for` loop over the entries from the cursor on, for any loop body: a failure is the error of some entry at which the body panics |
| Engine.ScanRows | src/engine/mod.rs:74-107 | the job's loop over the entries from the cursor on: a failure means some non-empty entry has fewer than 12 key bytes or a payload that does not decode |
| Engine.Scan | src/engine/mod.rs:62-107 | the seek followed by the loop: a failure means some non-empty entry of the table has fewer than 12 key bytes or a payload that does not decode |
| Engine.StopIndex | src/engine/mod.rs:80-84 | the position of the first non-empty entry whose block lies past `to_block`; no earlier entry stops the scan |
| Engine.Halt | src/engine/mod.rs:74-107 | the position of the entry at which the loop leaves, by `break` or by a panic; every entry before it was passed over or yielded rows |
| Engine.RunFailure | src/engine/mod.rs:81-86 | the loop fails exactly when the entry it leaves at panics, and with that entry's error |
| Engine.RunSplit | src/engine/mod.rs:74-107 | up to that entry, the loop splits at any position into a failure-free loop over the entries before it and the loop over the rest |
| Engine.RunSegment | src/engine/mod.rs:74-107 | the rows of an entry before that one sit between the rows of the entries before it and those after it |
| Engine.RunSound | src/engine/mod.rs:74-107 | every row the loop yields comes from an entry before the one it leaves at |
| Engine.RunStopsAt | src/engine/mod.rs:82-84 | nothing at or after an entry that breaks the loop contributes rows or a failure |
| Engine.HaltAtStop | src/engine/mod.rs:80-86 | the scan leaves no later than the first stopping entry, and exactly there when it does not fail |
| Engine.EmitFacts | src/engine/mod.rs:80-98 | an entry that yields rows is non-empty, has at least 12 key bytes, lies in range, decodes, and yields its kept logs' rows |
| Engine.ScanRowsBounded | src/engine/mod.rs:82-91 | no row lies past `to_block`; with a filter set, every row's address is the filter |
| Engine.ScanSound | src/engine/mod.rs:80-98 | every row comes from a non-empty, in-range entry before the stopping entry: its block and index are that entry's key fields, and its log is one of that entry's decoded logs that matches the filter |
| Engine.ScanEntrySegment | src/engine/mod.rs:88-98 | in a scan without failure, each non-empty entry before the stop has a 12-byte key and a decodable payload, and the rows of its retained logs appear, in decode order, between the rows of the entries before and after it |
| Engine.ScanFailureCause | src/engine/mod.rs:81-86 | a failed scan failed at a non-empty entry before the stop, all earlier entries having passed: either its key is shorter than 12 bytes, or it has 12 key bytes and its payload does not decode |
| Engine.StopEndsScan | src/engine/mod.rs:82-84 | nothing at or after a stopping entry contributes rows or a failure |
| Engine.NonEmptyMembers | src/engine/mod.rs:80 | the non-empty entries are exactly the entries with a value |
| Engine.EmptyValuesIgnored | src/engine/mod.rs:80 | entries with an empty value are never decoded or range-checked: the scan is the same with all of them removed |
| Engine.KeyOrderGivesRowOrder | src/engine/mod.rs:81-85 | of two 12-byte keys in store order, the first has the smaller block, or the same block and a transaction index no larger |
| Engine.ScanWithinRange | src/engine/mod.rs:62-84 | in a sorted table, every row of a job lies in `[from_block, to_block]`; the converse is `Engine.ScanCoversInRange` and `Engine.InRangeLogsReturned` |
| Engine.KeyOrderGivesBlockOrder | src/engine/mod.rs:74-84 | of two keys of at least 8 bytes in store order, the first has a block number no larger |
| Engine.ScanReachesInRange | src/engine/mod.rs:62-84 | in a sorted table, a non-empty entry whose block lies in `[from_block, to_block]` is at or after the cursor's start and before the entry that stops the scan |
| Engine.ScanCoversInRange | src/engine/mod.rs:62-98 | in a sorted table and a job that does not fail, such an entry has a 12-byte key and a decodable payload, and its kept logs' rows form one segment of the job's rows, between those of the entries before and after it |
| Engine.InRangeLogsReturned | src/engine/mod.rs:62-98 | in a sorted table and a job that does not fail, every decoded log of such an entry that passes the filter comes out as a row with the entry's block and transaction index |
| Engine.ScanOrdered | src/engine/mod.rs:74-98 | over sorted entries from the cursor on, rows come out in non-decreasing `(block, tx)` order |
| Engine.JobRowsOrdered | src/engine/mod.rs:74-98 | in a sorted table, the rows of a job come out in non-decreasing `(block, tx)` order |
| Engine.PushRows | src/engine/mod.rs:95-98 | the inner loop appends the rows to the buffer and adds their number to `log_count` |
| Engine.BufferRows | src/engine/mod.rs:95-105 | the buffer is sent exactly when it holds more than `LOG_CHUNK_SIZE` rows, so a buffer of exactly 10 000 rows is kept; every sent chunk is larger than that, the buffer never is between entries, and nothing is lost or reordered |
| Engine.Finish | src/engine/mod.rs:108-116 | a non-empty remainder is sent as one more chunk, and then `None` ends the message list; the payload gains exactly the remainder |
| Engine.ScanStep | src/engine/mod.rs:78-107 | one pass of the loop body against the scan of the remaining entries: break, panic, or its rows followed by the rest |
| Engine.ExecuteJob | src/engine/mod.rs:62-116 | the failure is the scan's and `log_count` is the number of scanned rows. On success the chunks concatenate to exactly the scanned rows, and the messages are non-empty chunks, each but the last larger than `LOG_CHUNK_SIZE`, followed by `None`. On failure the sent chunks are a prefix of the rows, each larger than `LOG_CHUNK_SIZE` |
| Types.Delivered | src/storage/mod.rs:73-77 | the writer consumes exactly the messages before the first `None` |
| Types.PayloadSendChunk | src/engine/mod.rs:102 | sending one more chunk after chunks extends the received rows by its rows |
| Types.PayloadSendTerminator | src/storage/mod.rs:73-76 | the terminator, and anything sent after it, adds no rows |
| Parquet.CountSet | src/storage/mod.rs:154-159 | the number of present levels is at most the number of levels |
| Parquet.WriteBatch | src/storage/mod.rs:154-159 | `write_batch` with levels stores one cell per level, non-null exactly at level 1, and fails when there are fewer values than present levels |
| Parquet.WriteBatchTakesInOrder | src/storage/mod.rs:154-159 | the k-th present cell holds the k-th value of the vector, not the value at its own row |
| Parquet.Compact | src/storage/mod.rs:154-187 | the compacted vector has one value per present level |
| Parquet.CompactRank | src/storage/mod.rs:154-187 | each present value sits in the compacted vector at its rank among the present rows |
| Parquet.CompactWritesPositional | src/storage/mod.rs:154-187 | writing the compacted values stores exactly the cells the rows mean |
| Parquet.Stored | src/storage/mod.rs:154-187 | the corrected write, which hands `write_batch` the compacted values: it stores exactly the cells the rows mean |
| Parquet.StoredAsWritten | src/storage/mod.rs:154-187 | the write as the source performs it, with the placeholder vector: one cell per level, null exactly at level 0 |
| Parquet.AsWrittenAgreesWithoutNulls | src/storage/mod.rs:154-187 | a column without nulls is stored correctly as written; the shift needs a placeholder |
| Parquet.NullThenValueAsWritten | src/storage/mod.rs:154-187 | a null followed by a value, written as the source writes it, stores the null's empty placeholder in the value's cell |
| Storage.TopicShiftAfterMissingTopic | src/storage/mod.rs:101-120 | a row with two topics followed by a row with three: the second row's `topic2` is stored as the empty placeholder as written, while its row means the topic |
| Parquet.PlaceholderShiftsValues | src/storage/mod.rs:287-300 | for the writer's own test column `[H, [], H]` with levels `[1, 0, 1]`, `write_batch` stores the placeholder in row 3, where the rows mean `H` |
| Storage.AsI64 | src/storage/mod.rs:96 | `block_n as i64` lands in the signed 64-bit range |
| Storage.AsI32 | src/storage/mod.rs:97-99 | `tx_n as i32` and `topics.len() as i32` land in the signed 32-bit range |
| Storage.ViewOf | src/storage/mod.rs:96-122 | what the per-row pushes mean for a reader: the block number and index cast to the signed 64- and 32-bit ranges, congruent to the row's modulo 2^64 and 2^32; the row's contract address; `op_code` the topic count cast to `i32`; four topic cells, cell k holding topic k exactly when the log has more than k topics; and a data cell that, when present, is the row's non-empty payload |
| Storage.CastsKeepLowBits | src/storage/mod.rs:96-99 | each cast result is congruent to its input modulo 2^64 or 2^32 |
| Storage.CastsInjective | src/storage/mod.rs:96-97 | different block numbers, and different transaction indexes, stay different after the cast |
| Storage.TopicsRoundTrip | src/storage/mod.rs:101-120 | for a log with at most four topics, the present topic cells in column order rebuild the topic list |
| Storage.OpCodeCountsAllTopics | src/storage/mod.rs:99-120 | `op_code` is the full topic count, even beyond four; topic column k holds a value exactly when k is below the count, and then holds topic k, so the columns keep the first four topics |
| Storage.DataRoundTrip | src/storage/mod.rs:208-221 | the data cell holds the payload exactly when the payload is present and non-empty |
| Storage.EmptyDataReadsAsAbsent | src/storage/mod.rs:208-221 | an empty payload and a missing one are written alike |
| Storage.ViewDeterminesRow | src/storage/mod.rs:94-122 | a log with at most four topics and no empty payload can be told from its stored row |
| Storage.SaveTopic | src/storage/mod.rs:198-206 | a present topic gets level 1 and a missing one level 0 with an empty placeholder; the new cell reads back as the topic and earlier cells are unchanged |
| Storage.SaveBinary | src/storage/mod.rs:208-221 | only non-empty data gets level 1; the new cell holds the data exactly then; missing or empty data gets level 0 with an empty placeholder; earlier cells are unchanged |
| Storage.EmptyGroup | src/storage/mod.rs:79-92 | each chunk starts from nine empty, aligned columns |
| Storage.AddRow | src/storage/mod.rs:94-123 | one pass of the per-row loop keeps all nine columns aligned, adds one row that reads back as the row's view, and leaves earlier rows unchanged (read positionally, through the corrected write) |
| Storage.ReadGroupAddRow | src/storage/mod.rs:94-123 | adding a row extends the rows read back by exactly that row's view (read positionally, through the corrected write) |
| Storage.GroupForAddRow | src/storage/mod.rs:94-123 | adding a row to the row group of some rows gives the row group of those rows extended by it |
| Storage.AppendRow | src/storage/mod.rs:94-123 | one pass of the per-row loop, stated against the rows seen so far (read positionally, through the corrected write) |
| Storage.BuildRowGroup | src/storage/mod.rs:79-123 | the per-chunk loop builds aligned columns with one entry per row, reading back as the chunk's rows in order |
| Storage.ViewsConcat | src/storage/mod.rs:94 | the views of concatenated rows are the concatenated views |
| Storage.ReadFileAppend | src/storage/mod.rs:125-188 | writing one more row group appends its rows to the file's rows |
| Storage.WrittenExtends | src/storage/mod.rs:73-123 | after writing the next chunk's row group, every row group still matches its chunk |
| Storage.WriteChunk | src/storage/mod.rs:73-123 | one pass of the receive loop turns the next chunk into the next row group; the file's rows grow by exactly that chunk's views (read positionally, through the corrected write) |
| Storage.RunWriter | src/storage/mod.rs:73-192 | one row group per chunk before the first `None`, in receive order; each reads back as its chunk's rows; the file's rows are the views of the received rows |
| Pipeline.TerminatedDelivers | src/storage/mod.rs:73-76 | the writer consumes every chunk of a job that ran to the end and stops at the terminator |
| Pipeline.FlushedDelivers | src/storage/mod.rs:73-76 | the writer consumes every chunk sent before a panic |
| Pipeline.ViewsPrefix | src/engine/mod.rs:102 | the views of a prefix of the rows are a prefix of their views |
| Pipeline.RunJob | src/engine/mod.rs:71-118 | on success the file reads back as exactly the scanned rows; after a failure it holds a prefix of them. Every row group is non-empty; every one but the last, or every one after a failure, holds more than `LOG_CHUNK_SIZE` rows; a successful job without rows writes no row group |
| Scenario.BlockKeysExist | src/engine/mod.rs:81-85 | the table's key format provides keys for blocks 100 to 105 |
| Scenario.WholeRange | src/engine/mod.rs:74-98 | blocks 100..105, no filter: the logs of blocks 101 and 104, in that order |
| Scenario.RangeEndsEarly | src/engine/mod.rs:82-84 | blocks 100..103: block 104's entry stops the scan, so only block 101's log is returned |
| Scenario.OtherContract | src/engine/mod.rs:88-94 | filtering on another contract keeps no row, and nothing fails |

## Left out

- Opening the mdbx environment and the read-only transaction, and the cursor mechanics (src/engine/mod.rs:40-61). These are foreign database calls. The table is a sequence of entries; only `Engine.SeekSkipsOnlyLowerKeys`, `Engine.ScanWithinRange`, `Engine.ScanOrdered` and `Engine.JobRowsOrdered` assume it is sorted. A cursor error (`item.unwrap()`) is not modelled.
- CBOR decoding with `serde_cbor` (src/engine/mod.rs:86) is a foreign library call. It is the parameter `decode`; `None` stands for a payload that does not decode.
- The Parquet file itself: the schema text, the writer properties, Snappy compression, and the bytes on disk (src/storage/mod.rs:34-46, 64-71, 125-192). These are foreign library calls. A row group is its column vectors, and a reader's view of a row is `LogView`. Errors while writing a column (`unwrap` on I/O) are not modelled.
- The tokio channel (capacity 8), `spawn`, `join!` and backpressure (src/storage/mod.rs:55, 63; src/engine/mod.rs:71, 118) are concurrency. The channel is the ordered list of sent messages. The writer reads it after the scanner, which gives the same file because the channel is FIFO.
- `a_writer.send(...).unwrap()` panicking for a closed channel is not modelled: the writer never stops early on its own side (it stops at the first `None`, or when the sender is dropped), so a send never fails. A failed terminator send (src/engine/mod.rs:114-116) is only logged by the source and changes nothing in the model.
- Logging, timing (`Instant`), the job id and the result path are not modelled; they are I/O.
- The HTTP trigger, hex address parsing and the CLI configuration are outside the pipeline.
- Engine.ExecuteJob: `log_count` is unbounded; the source's `u64` counter cannot overflow for any table the model can describe in practice, so its wrap-around is not modelled.
- Storage.TopicsRoundTrip: stated for logs with at most four topics only. A log with more topics keeps only its first four in the topic columns (`Storage.OpCodeCountsAllTopics`).
- Storage.OpCodeCountsAllTopics: the exact count is stated below 2^31 topics; beyond that the cast wraps, which `Storage.AsI32` and `Storage.CastsKeepLowBits` describe.
- Parquet.Stored: states the corrected write, not what the source's `write_batch` calls store; that is `Parquet.StoredAsWritten`, and `Storage.ReadRow` reads rows through the corrected write.
- Storage.BuildRowGroup: the stored cells are the corrected ones (`Parquet.Stored`, values compacted before `write_batch`), not the shifted cells the source as written produces; see Findings.
- Storage.WriteChunk: the row group it adds reads back through the corrected write (`Parquet.Stored`), not the shifted cells the source as written produces; see Findings.
- Storage.RunWriter: each row group reads back through the corrected write (`Parquet.Stored`), not the shifted cells the source as written produces; see Findings.
- Pipeline.RunJob: the file reads back through the corrected write (`Parquet.Stored`), not the shifted cells the source as written produces; the remainder's size bound is as in `Engine.ExecuteJob`.
- Engine.ExecuteJob: `Terminated` does not tell a remainder chunk from a chunk flushed in the loop: the last chunk is either. Its size bound is the one the message list shows: every chunk but the last is larger than `LOG_CHUNK_SIZE`.

## Findings

| source | as written | input that shows it | evidently intended | confidence | as-written member | corrected member |
|---|---|---|---|---|---|---|
| src/storage/mod.rs:154-187 | every optional column is handed to `write_batch` with one value per row, an empty placeholder standing in for each null. Parquet's `write_batch` takes values only for the present levels, in order, so every value after a null moves up one row and the last present values are dropped | the writer's own test column (src/storage/mod.rs:287-300): values `[H, [], H]` with levels `[1, 0, 1]` store `H`, null, `[]`, where the rows mean `H`, null, `H`; in a job, a row without `topic2` followed by one with it puts the placeholder in the second row's `topic2` (`Storage.TopicShiftAfterMissingTopic`) | each present value is stored on its own row: the value vector holds only the present values (`Compact`) | not executed; the behaviour of `write_batch` is the Parquet library's documented contract, which is outside the sources | Parquet.PlaceholderShiftsValues | Parquet.CompactWritesPositional |

=== FILE: bigendian.dfy ===
/**
 * Bytes, the big-endian integer codec the scanner uses for its composite key
 * (the `byteorder` crate's `BigEndian::write_u64`, `read_u64` and `read_u32`),
 * and the byte-wise order in which the key-value store keeps its keys.
 */
module BigEndian {

  type byte = x: int | 0 <= x < 256
  type Bytes = seq<byte>

  /** 256 to the power n: one more than the largest value n bytes can hold. */
  function Pow256(n: nat): (r: nat)
    ensures r >= 1
  {
    if n == 0 then 1 else 256 * Pow256(n - 1)
  }

  lemma Pow256Widths()
    ensures Pow256(4) == 0x1_0000_0000
    ensures Pow256(8) == 0x1_0000_0000_0000_0000
  {
    assert Pow256(1) == 256;
    assert Pow256(2) == 0x1_0000;
    assert Pow256(4) == 0x1_0000_0000;
  }

  /** The unsigned value of s read most significant byte first. */
  function Decode(s: Bytes): (n: nat)
    ensures n < Pow256(|s|)
  {
    if s == [] then 0 else 256 * Decode(s[..|s| - 1]) + s[|s| - 1]
  }

  /** The width-byte big-endian encoding of n. */
  function Encode(n: nat, width: nat): (s: Bytes)
    requires n < Pow256(width)
    ensures |s| == width
    ensures Decode(s) == n
  {
    if width == 0 then []
    else
      var s := Encode(n / 256, width - 1) + [n % 256];
      assert s[..width - 1] == Encode(n / 256, width - 1);
      s
  }

  /**
   * `read_u64`: the first eight bytes of s as a big-endian number, written
   * out byte by byte.
   */
  function ReadU64(s: Bytes): (n: nat)
    requires |s| >= 8
    ensures n < 0x1_0000_0000_0000_0000
  {
    var b: seq<int> := s;
    b[0] * 0x100_0000_0000_0000 + b[1] * 0x1_0000_0000_0000 + b[2] * 0x100_0000_0000 + b[3] * 0x1_0000_0000
      + b[4] * 0x100_0000 + b[5] * 0x1_0000 + b[6] * 0x100 + b[7]
  }

  /** `read_u32`: the first four bytes of s as a big-endian number. */
  function ReadU32(s: Bytes): (n: nat)
    requires |s| >= 4
    ensures n < 0x1_0000_0000
  {
    var b: seq<int> := s;
    b[0] * 0x100_0000 + b[1] * 0x1_0000 + b[2] * 0x100 + b[3]
  }

  /** Decoding a prefix one byte longer shifts in that byte. */
  lemma DecodePrefix(s: Bytes, k: nat)
    requires 0 < k <= |s|
    ensures Decode(s[..k]) == 256 * Decode(s[..k - 1]) + s[k - 1]
  {
    assert s[..k][..k - 1] == s[..k - 1];
  }

  /** `read_u64` is the eight-byte decoding. */
  lemma ReadU64Decode(s: Bytes)
    requires |s| >= 8
    ensures ReadU64(s) == Decode(s[..8])
  {
    assert s[..0] == [];
    DecodePrefix(s, 1);
    DecodePrefix(s, 2);
    DecodePrefix(s, 3);
    DecodePrefix(s, 4);
    DecodePrefix(s, 5);
    DecodePrefix(s, 6);
    DecodePrefix(s, 7);
    DecodePrefix(s, 8);
  }

  /** `read_u32` is the four-byte decoding. */
  lemma ReadU32Decode(s: Bytes)
    requires |s| >= 4
    ensures ReadU32(s) == Decode(s[..4])
  {
    assert s[..0] == [];
    DecodePrefix(s, 1);
    DecodePrefix(s, 2);
    DecodePrefix(s, 3);
    DecodePrefix(s, 4);
  }

  /** Reading from the front: the first byte weighs 256 to the power of the rest's length. */
  lemma {:induction false} DecodeCons(h: byte, t: Bytes)
    ensures Decode([h] + t) == h * Pow256(|t|) + Decode(t)
  {
    if t == [] {
      assert [h] + t == [h];
      assert [h][..0] == [];
    } else {
      var init := t[..|t| - 1];
      assert ([h] + t)[..|t|] == [h] + init;
      DecodeCons(h, init);
      assert 256 * (h * Pow256(|init|)) == h * (256 * Pow256(|init|));
    }
  }

  lemma MulLe(a: int, b: int, p: nat)
    requires a <= b
    ensures a * p <= b * p
  {
    assert b * p - a * p == (b - a) * p;
  }

  lemma MulSucc(a: int, p: int)
    ensures (a + 1) * p == a * p + p
  {
  }

  /** Two byte strings of one width with the same value are the same bytes. */
  lemma {:induction false} DecodeInjective(a: Bytes, b: Bytes)
    requires |a| == |b| && Decode(a) == Decode(b)
    ensures a == b
  {
    if a != [] {
      var ai, al := a[..|a| - 1], a[|a| - 1];
      var bi, bl := b[..|b| - 1], b[|b| - 1];
      ShiftOut(Decode(ai), al);
      ShiftOut(Decode(bi), bl);
      DecodeInjective(ai, bi);
      assert a == ai + [al] && b == bi + [bl];
    }
  }

  /** Decoding then re-encoding at the same width gives the bytes back. */
  lemma EncodeDecode(s: Bytes)
    ensures Encode(Decode(s), |s|) == s
  {
    DecodeInjective(Encode(Decode(s), |s|), s);
  }

  /** Shifting in one byte and dividing it back out. */
  lemma ShiftOut(x: nat, b: byte)
    ensures (256 * x + b) / 256 == x
    ensures (256 * x + b) % 256 == b
  {
  }

  /**
   * The store's key order: bytes compared one by one from the front, and a
   * proper prefix sorts before the longer key.
   */
  predicate LexLess(a: Bytes, b: Bytes)
  {
    if a == [] then b != []
    else if b == [] then false
    else a[0] < b[0] || (a[0] == b[0] && LexLess(a[1..], b[1..]))
  }

  lemma {:induction false} LexLessIrreflexive(a: Bytes)
    ensures !LexLess(a, a)
  {
    if a != [] {
      LexLessIrreflexive(a[1..]);
    }
  }

  lemma {:induction false} LexLessTransitive(a: Bytes, b: Bytes, c: Bytes)
    requires LexLess(a, b) && LexLess(b, c)
    ensures LexLess(a, c)
  {
    if a != [] && b != [] && c != [] && a[0] == b[0] && b[0] == c[0] {
      LexLessTransitive(a[1..], b[1..], c[1..]);
    }
  }

  /** For keys of one width, byte order and numeric order agree. */
  lemma {:induction false} DecodeMonotone(a: Bytes, b: Bytes)
    requires |a| == |b|
    ensures LexLess(a, b) <==> Decode(a) < Decode(b)
  {
    if a != [] {
      var p := Pow256(|a| - 1);
      assert a == [a[0]] + a[1..] && b == [b[0]] + b[1..];
      DecodeCons(a[0], a[1..]);
      DecodeCons(b[0], b[1..]);
      if a[0] < b[0] {
        MulLe(a[0] + 1, b[0], p);
        MulSucc(a[0], p);
      } else if a[0] > b[0] {
        MulLe(b[0] + 1, a[0], p);
        MulSucc(b[0], p);
      } else {
        DecodeMonotone(a[1..], b[1..]);
      }
    }
  }

  /**
   * Comparing a key against a shorter bound: the key sorts below the bound
   * exactly when its first |bound| bytes do.
   */
  lemma {:induction false} LexLessAgainstShorter(k: Bytes, bound: Bytes)
    requires |k| >= |bound|
    ensures LexLess(k, bound) <==> LexLess(k[..|bound|], bound)
  {
    if bound != [] {
      assert k[..|bound|][1..] == k[1..][..|bound| - 1];
      LexLessAgainstShorter(k[1..], bound[1..]);
    }
  }

  /** A proper prefix sorts before the longer key. */
  lemma {:induction false} ProperPrefixBelow(a: Bytes, b: Bytes)
    requires b != []
    ensures LexLess(a, a + b)
  {
    if a == [] {
      assert a + b == b;
    } else {
      assert (a + b)[0] == a[0] && (a + b)[1..] == a[1..] + b;
      ProperPrefixBelow(a[1..], b);
    }
  }

  /** No key at least as long as an all-zero string sorts below it. */
  lemma {:induction false} NothingBelowZeros(k: Bytes, z: Bytes)
    requires |k| >= |z| && Decode(z) == 0
    ensures !LexLess(k, z)
  {
    if z != [] {
      assert z == [z[0]] + z[1..];
      DecodeCons(z[0], z[1..]);
      if z[0] > 0 {
        MulLe(1, z[0], Pow256(|z[1..]|));
      }
      NothingBelowZeros(k[1..], z[1..]);
    }
  }

  /**
   * Padding a bound with zero bytes does not move it among keys long enough
   * to reach the padding: such a key sorts below the padded bound exactly
   * when its head sorts below the bound.
   */
  lemma {:induction false} LexLessZeroPadded(k: Bytes, s: Bytes, z: Bytes)
    requires |k| >= |s| + |z| && Decode(z) == 0
    ensures LexLess(k, s + z) <==> LexLess(k[..|s|], s)
  {
    if s == [] {
      assert s + z == z;
      NothingBelowZeros(k, z);
    } else {
      assert (s + z)[0] == s[0] && (s + z)[1..] == s[1..] + z;
      assert k[..|s|][0] == k[0] && k[..|s|][1..] == k[1..][..|s| - 1];
      LexLessZeroPadded(k[1..], s[1..], z);
    }
  }

  /**
   * Splitting two ordered keys after n bytes: either the heads are ordered,
   * or the heads are equal and the tails are ordered.
   */
  lemma {:induction false} LexLessSplit(a: Bytes, b: Bytes, n: nat)
    requires |a| >= n && |b| >= n
    requires LexLess(a, b)
    ensures LexLess(a[..n], b[..n]) || (a[..n] == b[..n] && LexLess(a[n..], b[n..]))
  {
    if n > 0 {
      assert a[..n][1..] == a[1..][..n - 1];
      assert b[..n][1..] == b[1..][..n - 1];
      assert a[n..] == a[1..][n - 1..];
      assert b[n..] == b[1..][n - 1..];
      if a[0] == b[0] {
        LexLessSplit(a[1..], b[1..], n - 1);
        if a[1..][..n - 1] == b[1..][..n - 1] {
          assert a[..n] == [a[0]] + a[1..][..n - 1];
          assert b[..n] == [b[0]] + b[1..][..n - 1];
        }
      }
    }
  }
}

=== FILE: engine.dfy ===
/**
 * The scanner and batcher of `SearchEngine::execute_job`: seek the ordered
 * `TransactionLog` table to the first key of `from_block`, walk its entries,
 * decode and filter the logs of each non-empty entry, stop at the first
 * non-empty entry past `to_block`, and hand the rows to the writer in chunks.
 */
module Engine {
  import opened Wrappers
  import opened BigEndian
  import opened Types

  /** The batcher's flush threshold. */
  const LOG_CHUNK_SIZE: nat := 10_000

  /** One key-value pair of the table; keys are block number ‖ tx index. */
  datatype Entry = Entry(key: Bytes, value: Bytes)

  /** The table as its cursor sees it. */
  type Store = seq<Entry>

  /** The payload decoder; `None` stands for a payload that does not decode. */
  type Decoder = Bytes -> Option<seq<KvLog>>

  /** The conditions under which the scan panics in the source. */
  datatype ScanError = MalformedKey(key: Bytes) | PayloadDecode(value: Bytes)

  /** The rows a scan yields, and the failure that ended it early, if any. */
  datatype ScanOutcome = ScanOutcome(rows: seq<Row>, failure: Option<ScanError>)

  /** The table keeps its keys strictly increasing in byte order. */
  predicate Sorted(store: Store)
  {
    forall i, j :: 0 <= i < j < |store| ==> LexLess(store[i].key, store[j].key)
  }

  /** Rows compare by block number, then by transaction index. */
  predicate RowLe(a: Row, b: Row)
  {
    a.block < b.block || (a.block == b.block && a.tx <= b.tx)
  }

  /** Rows in non-decreasing (block, transaction) order. */
  predicate RowsOrdered(rows: seq<Row>)
  {
    forall a, b :: 0 <= a < b < |rows| ==> RowLe(rows[a], rows[b])
  }

  /** The cursor's start key: the 8-byte big-endian encoding of `from_block`. */
  function SeekKey(fromBlock: u64): (key: Bytes)
    ensures |key| == 8
    ensures Decode(key) == fromBlock
  {
    Pow256Widths();
    Encode(fromBlock, 8)
  }

  /** Where the cursor lands: the first entry whose key is not below `key`. */
  function SeekIndex(store: Store, key: Bytes): (i: nat)
    ensures i <= |store|
    ensures forall j :: 0 <= j < i ==> LexLess(store[j].key, key)
    ensures i < |store| ==> !LexLess(store[i].key, key)
  {
    if store == [] || !LexLess(store[0].key, key) then 0
    else 1 + SeekIndex(store[1..], key)
  }

  /** Reading the block number back from the seek key gives `from_block`. */
  lemma SeekKeyReadsBack(fromBlock: u64)
    ensures BlockOf(SeekKey(fromBlock)) == fromBlock
  {
    ReadU64Decode(SeekKey(fromBlock));
    assert SeekKey(fromBlock)[..8] == SeekKey(fromBlock);
  }

  /** The block number of a key: its first 8 bytes, big-endian. */
  function BlockOf(key: Bytes): u64
    requires |key| >= 8
  {
    ReadU64(key)
  }

  /** The transaction index of a key: bytes 8 to 12, big-endian. */
  function TxOf(key: Bytes): u32
    requires |key| >= 12
  {
    ReadU32(key[8..])
  }

  /** The table's key of a block number and transaction index: 8 then 4 big-endian bytes. */
  function EntryKey(block: u64, tx: u32): (key: Bytes)
    ensures |key| == 12
  {
    Pow256Widths();
    Encode(block, 8) + Encode(tx, 4)
  }

  /** Reading a table key back gives its block number and transaction index. */
  lemma EntryKeyReadsBack(block: u64, tx: u32)
    ensures BlockOf(EntryKey(block, tx)) == block && TxOf(EntryKey(block, tx)) == tx
  {
    Pow256Widths();
    var k := EntryKey(block, tx);
    ReadU64Decode(k);
    ReadU32Decode(k[8..]);
    assert k[..8] == Encode(block, 8);
    assert k[8..][..4] == Encode(tx, 4);
  }

  predicate Matches(log: KvLog, filter: Option<Address>)
  {
    filter.None? || log.address == filter.value
  }

  /** `Vec::retain` with the address test. */
  function KeepAddress(logs: seq<KvLog>, addr: Address): (kept: seq<KvLog>)
    ensures |kept| <= |logs|
    ensures forall i :: 0 <= i < |kept| ==> kept[i].address == addr
  {
    if logs == [] then []
    else
      var rest := KeepAddress(logs[1..], addr);
      if logs[0].address == addr then [logs[0]] + rest else rest
  }

  /** `retain` keeps each log of the address as often as it occurs, and no other log. */
  lemma {:induction false} KeepAddressCounts(logs: seq<KvLog>, addr: Address)
    ensures forall l :: multiset(KeepAddress(logs, addr))[l] == if l.address == addr then multiset(logs)[l] else 0
  {
    if logs != [] {
      KeepAddressCounts(logs[1..], addr);
      assert logs == [logs[0]] + logs[1..];
    }
  }

  /**
   * `retain` keeps the order of the logs: filtering a concatenation
   * concatenates the filtered parts, and a single log is kept exactly when
   * its address is the filter.
   */
  lemma {:induction false} KeepAddressConcat(a: seq<KvLog>, b: seq<KvLog>, addr: Address)
    ensures KeepAddress(a + b, addr) == KeepAddress(a, addr) + KeepAddress(b, addr)
    ensures |a| == 1 ==> KeepAddress(a, addr) == (if a[0].address == addr then a else [])
  {
    if a == [] {
      assert a + b == b;
    } else {
      assert (a + b)[0] == a[0] && (a + b)[1..] == a[1..] + b;
      KeepAddressConcat(a[1..], b, addr);
      if |a| == 1 {
        assert a[1..] == [];
      }
    }
  }

  /** The optional contract filter of the job. */
  function Retain(logs: seq<KvLog>, filter: Option<Address>): (kept: seq<KvLog>)
    ensures filter.None? ==> kept == logs
    ensures forall l :: l in kept <==> l in logs && Matches(l, filter)
  {
    match filter
    case None => logs
    case Some(addr) =>
      var kept := KeepAddress(logs, addr);
      KeepAddressCounts(logs, addr);
      assert forall l :: l in kept <==> multiset(kept)[l] > 0;
      kept
  }

  /** The rows of one entry: every kept log, tagged with the entry's key. */
  function RowsOf(block: u64, tx: u32, logs: seq<KvLog>): (rows: seq<Row>)
    ensures |rows| == |logs|
    ensures forall i :: 0 <= i < |rows| ==> rows[i] == Row(block, tx, logs[i])
  {
    seq(|logs|, i requires 0 <= i < |logs| => Row(block, tx, logs[i]))
  }

  /** A row belongs to an entry's rows exactly when it carries the entry's key fields and one of its logs. */
  lemma RowsOfMembers(block: u64, tx: u32, logs: seq<KvLog>, r: Row)
    ensures r in RowsOf(block, tx, logs) <==> r.block == block && r.tx == tx && r.log in logs
  {
    var rows := RowsOf(block, tx, logs);
    if r.block == block && r.tx == tx && r.log in logs {
      var i :| 0 <= i < |logs| && logs[i] == r.log;
      assert rows[i] == r;
    }
  }

  /** The rows of concatenated logs are the concatenated rows: each log keeps its place. */
  lemma RowsOfConcat(block: u64, tx: u32, x: seq<KvLog>, y: seq<KvLog>)
    ensures RowsOf(block, tx, x + y) == RowsOf(block, tx, x) + RowsOf(block, tx, y)
  {
    var whole, parts := RowsOf(block, tx, x + y), RowsOf(block, tx, x) + RowsOf(block, tx, y);
    forall i | 0 <= i < |whole| ensures whole[i] == parts[i] {
      if i < |x| {
        assert (x + y)[i] == x[i];
      } else {
        assert (x + y)[i] == y[i - |x|];
      }
    }
  }

  /** A non-empty entry whose block number lies past the range ends the scan. */
  predicate StopsScan(e: Entry, toBlock: u64)
  {
    |e.value| > 0 && |e.key| >= 8 && BlockOf(e.key) > toBlock
  }

  /** The position of the first entry that ends the scan, or the length. */
  function StopIndex(entries: Store, toBlock: u64): (n: nat)
    ensures n <= |entries|
    ensures forall j :: 0 <= j < n ==> !StopsScan(entries[j], toBlock)
    ensures n < |entries| ==> StopsScan(entries[n], toBlock)
  {
    if entries == [] || StopsScan(entries[0], toBlock) then 0
    else 1 + StopIndex(entries[1..], toBlock)
  }

  /** What the loop body does with one entry. */
  datatype Step = Skip | Stop | Fail(error: ScanError) | Emit(rows: seq<Row>)

  /** A step after which the loop goes on: the entry was passed over or yielded rows. */
  predicate Continues(step: Step)
  {
    step.Skip? || step.Emit?
  }

  /** The rows one step contributes. */
  function StepRows(step: Step): seq<Row>
  {
    if step.Emit? then step.rows else []
  }

  /**
   * The loop body for one entry. An entry with an empty value is passed over
   * without looking at its key. A non-empty entry needs 8 key bytes for the
   * block number; past `to_block` it ends the scan; otherwise it needs 12 key
   * bytes for the transaction index and a payload that decodes, and yields
   * one row per kept log.
   */
  function StepEntry(e: Entry, toBlock: u64, filter: Option<Address>, decode: Decoder): (s: Step)
    ensures s.Skip? <==> |e.value| == 0
    ensures s.Stop? <==> StopsScan(e, toBlock)
    ensures s.Fail? <==> (|e.value| > 0
      && (|e.key| < 8 || (BlockOf(e.key) <= toBlock && (|e.key| < 12 || decode(e.value).None?))))
  {
    if |e.value| == 0 then Skip
    else if |e.key| < 8 then Fail(MalformedKey(e.key))
    else if BlockOf(e.key) > toBlock then Stop
    else if |e.key| < 12 then Fail(MalformedKey(e.key))
    else match decode(e.value)
      case None => Fail(PayloadDecode(e.value))
      case Some(logs) => Emit(RowsOf(BlockOf(e.key), TxOf(e.key), Retain(logs, filter)))
  }

  /** A non-empty entry whose key lacks the transaction index or whose payload does not decode. */
  predicate Unreadable(e: Entry, decode: Decoder)
  {
    |e.value| > 0 && (|e.key| < 12 || decode(e.value).None?)
  }

  /** The loop body of one job: its range end, filter and decoder fixed. */
  function Body(toBlock: u64, filter: Option<Address>, decode: Decoder): Entry -> Step
  {
    e => StepEntry(e, toBlock, filter, decode)
  }

  /** Some entry makes the body panic with the given error. */
  predicate Panics(entries: Store, body: Entry -> Step, err: ScanError)
  {
    exists i :: 0 <= i < |entries| && body(entries[i]) == Fail(err)
  }

  /** A loop over the entries from the cursor's position on, with a given body. */
  function Run(entries: Store, body: Entry -> Step): (r: ScanOutcome)
    ensures r.failure.Some? ==> Panics(entries, body, r.failure.value)
    decreases |entries|
  {
    if entries == [] then ScanOutcome([], None)
    else match body(entries[0])
      case Skip => Run(entries[1..], body)
      case Stop => ScanOutcome([], None)
      case Fail(err) => ScanOutcome([], Some(err))
      case Emit(rows) =>
        var rest := Run(entries[1..], body);
        ScanOutcome(rows + rest.rows, rest.failure)
  }

  /** The position of the entry the loop leaves at, by `break` or by a panic, or the length. */
  function Halt(entries: Store, body: Entry -> Step): (n: nat)
    ensures n <= |entries|
    ensures forall j :: 0 <= j < n ==> Continues(body(entries[j]))
    ensures n < |entries| ==> !Continues(body(entries[n]))
  {
    if entries == [] || !Continues(body(entries[0])) then 0
    else 1 + Halt(entries[1..], body)
  }

  /** The loop fails exactly when the entry it leaves at panics, with that entry's error. */
  lemma {:induction false} RunFailure(entries: Store, body: Entry -> Step)
    ensures var h := Halt(entries, body);
      Run(entries, body).failure == if h < |entries| && body(entries[h]).Fail? then Some(body(entries[h]).error) else None
  {
    if entries != [] && Continues(body(entries[0])) {
      RunFailure(entries[1..], body);
      var h := Halt(entries[1..], body);
      if h < |entries| - 1 {
        assert entries[1..][h] == entries[h + 1];
      }
    }
  }

  /** A loop whose first entry continues yields that entry's rows, then the rest's. */
  lemma RunCons(entries: Store, body: Entry -> Step)
    requires entries != [] && Continues(body(entries[0]))
    ensures Run(entries, body).rows == StepRows(body(entries[0])) + Run(entries[1..], body).rows
    ensures Run(entries, body).failure == Run(entries[1..], body).failure
  {
    if body(entries[0]).Skip? {
      assert [] + Run(entries[1..], body).rows == Run(entries[1..], body).rows;
    }
  }

  /** Concatenation of rows is associative. */
  lemma Reassociate(a: seq<Row>, b: seq<Row>, c: seq<Row>)
    ensures a + (b + c) == a + b + c
  {
  }

  /**
   * Up to the entry the loop leaves at, the loop splits at any position into
   * the loop over the entries before it, which does not fail, and the loop
   * over the rest.
   */
  lemma {:induction false} RunSplit(entries: Store, body: Entry -> Step, j: nat)
    requires j <= Halt(entries, body)
    ensures Run(entries[..j], body).failure.None?
    ensures Run(entries, body).failure == Run(entries[j..], body).failure
    ensures Run(entries, body).rows == Run(entries[..j], body).rows + Run(entries[j..], body).rows
  {
    if j == 0 {
      assert entries[..0] == [] && entries[0..] == entries;
      assert [] + Run(entries, body).rows == Run(entries, body).rows;
    } else {
      RunSplit(entries[1..], body, j - 1);
      assert entries[1..][j - 1..] == entries[j..];
      assert entries[..j][0] == entries[0] && entries[..j][1..] == entries[1..][..j - 1];
      RunCons(entries, body);
      RunCons(entries[..j], body);
      Reassociate(StepRows(body(entries[0])), Run(entries[1..][..j - 1], body).rows, Run(entries[j..], body).rows);
    }
  }

  /**
   * The rows of an entry before the one the loop leaves at appear together,
   * after the rows of the entries before it and before those of the entries
   * after it.
   */
  lemma RunSegment(entries: Store, body: Entry -> Step, j: nat)
    requires j < Halt(entries, body)
    ensures Run(entries, body).rows
         == Run(entries[..j], body).rows + StepRows(body(entries[j])) + Run(entries[j + 1..], body).rows
  {
    RunSplit(entries, body, j);
    assert entries[j..][0] == entries[j] && entries[j..][1..] == entries[j + 1..];
    RunCons(entries[j..], body);
    Reassociate(Run(entries[..j], body).rows, StepRows(body(entries[j])), Run(entries[j + 1..], body).rows);
  }

  /** Every row the loop yields is a row of an entry before the one it leaves at. */
  lemma {:induction false} RunSound(entries: Store, body: Entry -> Step, r: Row)
    requires r in Run(entries, body).rows
    ensures exists j :: 0 <= j < Halt(entries, body) && r in StepRows(body(entries[j]))
  {
    assert Continues(body(entries[0]));
    RunCons(entries, body);
    if r !in StepRows(body(entries[0])) {
      RunSound(entries[1..], body, r);
      var j :| 0 <= j < Halt(entries[1..], body) && r in StepRows(body(entries[1..][j]));
      assert entries[1..][j] == entries[j + 1];
    }
  }

  /** Nothing at or after an entry that stops the loop contributes rows or a failure. */
  lemma {:induction false} RunStopsAt(entries: Store, body: Entry -> Step, k: nat)
    requires k < |entries| && body(entries[k]).Stop?
    ensures Run(entries, body) == Run(entries[..k], body)
  {
    if k > 0 {
      assert entries[..k][0] == entries[0];
      assert entries[..k][1..] == entries[1..][..k - 1];
      RunStopsAt(entries[1..], body, k - 1);
    }
  }

  /** One iteration of the loop, stated against the loop over the remaining entries. */
  lemma RunStep(entries: Store, i: nat, body: Entry -> Step)
    requires i < |entries|
    ensures var step := body(entries[i]);
      var here := Run(entries[i..], body);
      var next := Run(entries[i + 1..], body);
      && (step.Stop? ==> here == ScanOutcome([], None))
      && (step.Fail? ==> here == ScanOutcome([], Some(step.error)))
      && (Continues(step) ==> here.rows == StepRows(step) + next.rows && here.failure == next.failure)
  {
    assert entries[i..][0] == entries[i] && entries[i..][1..] == entries[i + 1..];
    if Continues(body(entries[i])) {
      RunCons(entries[i..], body);
    }
  }

  /** The scan loop of a job from the cursor's position on. */
  function ScanRows(entries: Store, toBlock: u64, filter: Option<Address>, decode: Decoder): (r: ScanOutcome)
    ensures r.failure.Some? ==> exists i :: 0 <= i < |entries| && Unreadable(entries[i], decode)
  {
    Run(entries, Body(toBlock, filter, decode))
  }

  /**
   * The scan leaves no later than the first stopping entry, and exactly there
   * when it does not fail.
   */
  lemma HaltAtStop(entries: Store, toBlock: u64, filter: Option<Address>, decode: Decoder)
    ensures Halt(entries, Body(toBlock, filter, decode)) <= StopIndex(entries, toBlock)
    ensures ScanRows(entries, toBlock, filter, decode).failure.None?
        ==> Halt(entries, Body(toBlock, filter, decode)) == StopIndex(entries, toBlock)
  {
    var body := Body(toBlock, filter, decode);
    var s := StopIndex(entries, toBlock);
    if s < |entries| {
      assert body(entries[s]).Stop?;
    }
    var h := Halt(entries, body);
    RunFailure(entries, body);
    if Run(entries, body).failure.None? && h < |entries| {
      assert StopsScan(entries[h], toBlock);
    }
  }

  /** An entry that emits rows is non-empty, in range, well keyed and decodable. */
  lemma EmitFacts(e: Entry, toBlock: u64, filter: Option<Address>, decode: Decoder)
    requires StepEntry(e, toBlock, filter, decode).Emit?
    ensures |e.value| > 0 && |e.key| >= 12 && BlockOf(e.key) <= toBlock && decode(e.value).Some?
    ensures StepEntry(e, toBlock, filter, decode).rows
         == RowsOf(BlockOf(e.key), TxOf(e.key), Retain(decode(e.value).value, filter))
  {
  }

  /** No row lies past `to_block`, and with a filter set every row's address is the filter. */
  lemma ScanRowsBounded(entries: Store, toBlock: u64, filter: Option<Address>, decode: Decoder, r: Row)
    requires r in ScanRows(entries, toBlock, filter, decode).rows
    ensures r.block <= toBlock
    ensures filter.Some? ==> r.log.address == filter.value
  {
    ScanSound(entries, toBlock, filter, decode, r);
  }

  /** The whole scan of a job: seek to `from_block`, then scan. */
  function Scan(store: Store, fromBlock: u64, toBlock: u64, filter: Option<Address>, decode: Decoder): (r: ScanOutcome)
    ensures r.failure.Some? ==> exists e :: e in store && Unreadable(e, decode)
  {
    ScanRows(store[SeekIndex(store, SeekKey(fromBlock))..], toBlock, filter, decode)
  }

  /** Entry e yields row r: e is in range and r carries e's key and one of e's kept logs. */
  predicate Produces(e: Entry, toBlock: u64, filter: Option<Address>, decode: Decoder, r: Row)
  {
    && |e.value| > 0
    && |e.key| >= 12
    && r.block == BlockOf(e.key) <= toBlock
    && r.tx == TxOf(e.key)
    && decode(e.value).Some?
    && r.log in decode(e.value).value
    && Matches(r.log, filter)
  }

  /** Every row comes from an entry before the stopping entry. */
  lemma ScanSound(entries: Store, toBlock: u64, filter: Option<Address>, decode: Decoder, r: Row)
    requires r in ScanRows(entries, toBlock, filter, decode).rows
    ensures exists j :: 0 <= j < StopIndex(entries, toBlock) && Produces(entries[j], toBlock, filter, decode, r)
  {
    var body := Body(toBlock, filter, decode);
    RunSound(entries, body, r);
    var j :| 0 <= j < Halt(entries, body) && r in StepRows(body(entries[j]));
    HaltAtStop(entries, toBlock, filter, decode);
    var e := entries[j];
    assert StepEntry(e, toBlock, filter, decode).Emit?;
    EmitFacts(e, toBlock, filter, decode);
    var logs := Retain(decode(e.value).value, filter);
    var i :| 0 <= i < |logs| && RowsOf(BlockOf(e.key), TxOf(e.key), logs)[i] == r;
    assert logs[i] in logs;
    assert Produces(e, toBlock, filter, decode, r);
  }

  /**
   * The rows of an in-range, non-empty entry appear together and in decode
   * order, after the rows of the entries before it and before the rows of
   * the entries after it.
   */
  lemma ScanEntrySegment(entries: Store, toBlock: u64, filter: Option<Address>, decode: Decoder, j: nat)
    requires ScanRows(entries, toBlock, filter, decode).failure.None?
    requires j < StopIndex(entries, toBlock) && |entries[j].value| > 0
    ensures |entries[j].key| >= 12 && BlockOf(entries[j].key) <= toBlock
    ensures decode(entries[j].value).Some?
    ensures ScanRows(entries, toBlock, filter, decode).rows
         == ScanRows(entries[..j], toBlock, filter, decode).rows
          + RowsOf(BlockOf(entries[j].key), TxOf(entries[j].key), Retain(decode(entries[j].value).value, filter))
          + ScanRows(entries[j + 1..], toBlock, filter, decode).rows
  {
    var body := Body(toBlock, filter, decode);
    HaltAtStop(entries, toBlock, filter, decode);
    RunSegment(entries, body, j);
    assert body(entries[j]) == StepEntry(entries[j], toBlock, filter, decode);
    EmitFacts(entries[j], toBlock, filter, decode);
  }

  /**
   * A scan fails at a non-empty entry before the stopping one, every entry
   * before it having passed: its key is too short for the transaction index,
   * or its payload does not decode.
   */
  lemma ScanFailureCause(entries: Store, toBlock: u64, filter: Option<Address>, decode: Decoder)
    requires ScanRows(entries, toBlock, filter, decode).failure.Some?
    ensures var error := ScanRows(entries, toBlock, filter, decode).failure.value;
      exists j :: 0 <= j < StopIndex(entries, toBlock)
        && (forall i :: 0 <= i < j ==> Continues(StepEntry(entries[i], toBlock, filter, decode)))
        && |entries[j].value| > 0
        && ((error == MalformedKey(entries[j].key) && |entries[j].key| < 12)
         || (error == PayloadDecode(entries[j].value) && |entries[j].key| >= 12 && decode(entries[j].value).None?))
  {
    var body := Body(toBlock, filter, decode);
    RunFailure(entries, body);
    var h := Halt(entries, body);
    assert StepEntry(entries[h], toBlock, filter, decode).Fail?;
    assert !StopsScan(entries[h], toBlock);
    assert forall i :: 0 <= i < h ==> Continues(StepEntry(entries[i], toBlock, filter, decode)) by {
      forall i | 0 <= i < h ensures Continues(StepEntry(entries[i], toBlock, filter, decode)) {
        assert body(entries[i]) == StepEntry(entries[i], toBlock, filter, decode);
      }
    }
    HaltAtStop(entries, toBlock, filter, decode);
  }

  /** Nothing at or after the first stopping entry contributes rows or failures. */
  lemma StopEndsScan(entries: Store, toBlock: u64, filter: Option<Address>, decode: Decoder, k: nat)
    requires k < |entries| && StopsScan(entries[k], toBlock)
    ensures ScanRows(entries, toBlock, filter, decode) == ScanRows(entries[..k], toBlock, filter, decode)
  {
    RunStopsAt(entries, Body(toBlock, filter, decode), k);
  }

  /** The entries whose value is not empty. */
  function NonEmpty(entries: Store): Store
  {
    if entries == [] then []
    else if |entries[0].value| == 0 then NonEmpty(entries[1..])
    else [entries[0]] + NonEmpty(entries[1..])
  }

  /** The non-empty entries are exactly the entries with a value. */
  lemma {:induction false} NonEmptyMembers(entries: Store)
    ensures forall e :: e in NonEmpty(entries) <==> e in entries && |e.value| > 0
  {
    if entries != [] {
      NonEmptyMembers(entries[1..]);
      assert entries == [entries[0]] + entries[1..];
    }
  }

  /**
   * Entries with an empty value are neither decoded nor range-checked: the
   * scan is the same with all of them removed, wherever they lie.
   */
  lemma {:induction false} EmptyValuesIgnored(entries: Store, toBlock: u64, filter: Option<Address>, decode: Decoder)
    ensures ScanRows(entries, toBlock, filter, decode) == ScanRows(NonEmpty(entries), toBlock, filter, decode)
  {
    if entries != [] {
      EmptyValuesIgnored(entries[1..], toBlock, filter, decode);
      if |entries[0].value| > 0 {
        assert ([entries[0]] + NonEmpty(entries[1..]))[1..] == NonEmpty(entries[1..]);
      }
    }
  }

  /** For keys of at least 8 bytes, sorting below the seek key means an earlier block. */
  lemma SeekKeyOrder(key: Bytes, fromBlock: u64)
    requires |key| >= 8
    ensures LexLess(key, SeekKey(fromBlock)) <==> BlockOf(key) < fromBlock
  {
    LexLessAgainstShorter(key, SeekKey(fromBlock));
    DecodeMonotone(key[..8], SeekKey(fromBlock));
    ReadU64Decode(key);
  }

  /**
   * On keys of the table's 12-byte format, the 8-byte seek key and the
   * 12-byte key of `(from_block, 0)` order alike: a key sorts below either
   * exactly when its block number is below `from_block`.
   */
  lemma SeekKeyMatchesEntryKey(key: Bytes, fromBlock: u64)
    requires |key| >= 12
    ensures LexLess(key, EntryKey(fromBlock, 0)) <==> LexLess(key, SeekKey(fromBlock))
    ensures LexLess(key, EntryKey(fromBlock, 0)) <==> BlockOf(key) < fromBlock
  {
    Pow256Widths();
    assert EntryKey(fromBlock, 0) == SeekKey(fromBlock) + Encode(0, 4);
    LexLessZeroPadded(key, SeekKey(fromBlock), Encode(0, 4));
    LexLessAgainstShorter(key, SeekKey(fromBlock));
    SeekKeyOrder(key, fromBlock);
  }

  /**
   * On shorter keys the two seeks differ: the 8-byte key of block
   * `from_block` is not below the 8-byte seek key, so the cursor reaches it,
   * but it sorts below the 12-byte key of `(from_block, 0)`.
   */
  lemma ShortKeySeeksDiffer(fromBlock: u64)
    ensures var key := SeekKey(fromBlock);
      && BlockOf(key) == fromBlock
      && !LexLess(key, SeekKey(fromBlock))
      && LexLess(key, EntryKey(fromBlock, 0))
  {
    Pow256Widths();
    SeekKeyReadsBack(fromBlock);
    LexLessIrreflexive(SeekKey(fromBlock));
    assert EntryKey(fromBlock, 0) == SeekKey(fromBlock) + Encode(0, 4);
    ProperPrefixBelow(SeekKey(fromBlock), Encode(0, 4));
  }

  /**
   * In a table whose keys all have at least 12 bytes, the cursor lands on
   * the same entry whether it seeks with the 8-byte key or with the 12-byte
   * key of `(from_block, 0)`.
   */
  lemma {:induction false} SeekIndexMatchesEntryKey(store: Store, fromBlock: u64)
    requires forall i :: 0 <= i < |store| ==> |store[i].key| >= 12
    ensures SeekIndex(store, SeekKey(fromBlock)) == SeekIndex(store, EntryKey(fromBlock, 0))
  {
    if store != [] {
      SeekKeyMatchesEntryKey(store[0].key, fromBlock);
      SeekIndexMatchesEntryKey(store[1..], fromBlock);
    }
  }

  /** In a sorted table, no entry from the cursor's position on lies below the seek key. */
  lemma SeekSkipsOnlyLowerKeys(store: Store, key: Bytes, j: nat)
    requires Sorted(store)
    requires SeekIndex(store, key) <= j < |store|
    ensures !LexLess(store[j].key, key)
  {
    var i := SeekIndex(store, key);
    if i < j && LexLess(store[j].key, key) {
      LexLessTransitive(store[i].key, store[j].key, key);
    }
  }

  /** Key order gives row order on (block, tx index). */
  lemma KeyOrderGivesRowOrder(k1: Bytes, k2: Bytes)
    requires |k1| >= 12 && |k2| >= 12
    requires LexLess(k1, k2)
    ensures BlockOf(k1) < BlockOf(k2) || (BlockOf(k1) == BlockOf(k2) && TxOf(k1) <= TxOf(k2))
  {
    LexLessSplit(k1, k2, 8);
    ReadU64Decode(k1);
    ReadU64Decode(k2);
    DecodeMonotone(k1[..8], k2[..8]);
    if k1[..8] == k2[..8] {
      LexLessSplit(k1[8..], k2[8..], 4);
      ReadU32Decode(k1[8..]);
      ReadU32Decode(k2[8..]);
      DecodeMonotone(k1[8..][..4], k2[8..][..4]);
    }
  }

  /** Every row of a job lies in [from_block, to_block] when the table is sorted. */
  lemma ScanWithinRange(store: Store, fromBlock: u64, toBlock: u64, filter: Option<Address>, decode: Decoder, r: Row)
    requires Sorted(store)
    requires r in Scan(store, fromBlock, toBlock, filter, decode).rows
    ensures fromBlock <= r.block <= toBlock
  {
    var i := SeekIndex(store, SeekKey(fromBlock));
    var entries := store[i..];
    ScanSound(entries, toBlock, filter, decode, r);
    var j :| 0 <= j < StopIndex(entries, toBlock) && Produces(entries[j], toBlock, filter, decode, r);
    SeekSkipsOnlyLowerKeys(store, SeekKey(fromBlock), i + j);
    SeekKeyOrder(entries[j].key, fromBlock);
  }

  /** Key order gives block order for keys that hold a block number. */
  lemma KeyOrderGivesBlockOrder(k1: Bytes, k2: Bytes)
    requires |k1| >= 8 && |k2| >= 8
    requires LexLess(k1, k2)
    ensures BlockOf(k1) <= BlockOf(k2)
  {
    LexLessSplit(k1, k2, 8);
    ReadU64Decode(k1);
    ReadU64Decode(k2);
    DecodeMonotone(k1[..8], k2[..8]);
  }

  /**
   * In a sorted table, a non-empty entry whose block lies in
   * [from_block, to_block] is reached by the cursor and comes before the
   * entry that stops the scan.
   */
  lemma ScanReachesInRange(store: Store, fromBlock: u64, toBlock: u64, p: nat)
    requires Sorted(store) && p < |store|
    requires |store[p].value| > 0 && |store[p].key| >= 8
    requires fromBlock <= BlockOf(store[p].key) <= toBlock
    ensures var i := SeekIndex(store, SeekKey(fromBlock));
      i <= p && p - i < StopIndex(store[i..], toBlock)
  {
    var i := SeekIndex(store, SeekKey(fromBlock));
    if p < i {
      SeekKeyOrder(store[p].key, fromBlock);
    }
    var s := StopIndex(store[i..], toBlock);
    if s <= p - i {
      assert store[i..][s] == store[i + s];
      if i + s < p {
        KeyOrderGivesBlockOrder(store[i + s].key, store[p].key);
      }
    }
  }

  /**
   * In a sorted table and a job that does not fail, the rows of a non-empty
   * entry whose block lies in [from_block, to_block] form one segment of the
   * result, between the rows of the entries before and after it.
   */
  lemma ScanCoversInRange(store: Store, fromBlock: u64, toBlock: u64, filter: Option<Address>, decode: Decoder, p: nat)
    requires Sorted(store) && p < |store|
    requires |store[p].value| > 0 && |store[p].key| >= 8
    requires fromBlock <= BlockOf(store[p].key) <= toBlock
    requires Scan(store, fromBlock, toBlock, filter, decode).failure.None?
    ensures |store[p].key| >= 12 && decode(store[p].value).Some?
    ensures SeekIndex(store, SeekKey(fromBlock)) <= p
    ensures var i := SeekIndex(store, SeekKey(fromBlock));
      Scan(store, fromBlock, toBlock, filter, decode).rows
        == ScanRows(store[i..p], toBlock, filter, decode).rows
         + RowsOf(BlockOf(store[p].key), TxOf(store[p].key), Retain(decode(store[p].value).value, filter))
         + ScanRows(store[p + 1..], toBlock, filter, decode).rows
  {
    ScanReachesInRange(store, fromBlock, toBlock, p);
    ScanSegmentAt(store, SeekIndex(store, SeekKey(fromBlock)), toBlock, filter, decode, p);
  }

  /** The segment of a non-empty entry between a cursor position i and the stop. */
  lemma ScanSegmentAt(store: Store, i: nat, toBlock: u64, filter: Option<Address>, decode: Decoder, p: nat)
    requires i <= p < |store| && p - i < StopIndex(store[i..], toBlock)
    requires |store[p].value| > 0
    requires ScanRows(store[i..], toBlock, filter, decode).failure.None?
    ensures |store[p].key| >= 12 && decode(store[p].value).Some?
    ensures ScanRows(store[i..], toBlock, filter, decode).rows
        == ScanRows(store[i..p], toBlock, filter, decode).rows
         + RowsOf(BlockOf(store[p].key), TxOf(store[p].key), Retain(decode(store[p].value).value, filter))
         + ScanRows(store[p + 1..], toBlock, filter, decode).rows
  {
    SuffixSlices(store, i, p);
    ScanEntrySegment(store[i..], toBlock, filter, decode, p - i);
  }

  /** Position p of a table, and the slices around it, seen from a suffix starting at i. */
  lemma SuffixSlices(store: Store, i: nat, p: nat)
    requires i <= p < |store|
    ensures store[i..][p - i] == store[p]
    ensures store[i..][..p - i] == store[i..p]
    ensures store[i..][p - i + 1..] == store[p + 1..]
  {
  }

  /**
   * In a sorted table, a job that does not fail returns a row for every
   * decoded log that passes the filter of every non-empty entry whose block
   * lies in [from_block, to_block].
   */
  lemma InRangeLogsReturned(store: Store, fromBlock: u64, toBlock: u64, filter: Option<Address>, decode: Decoder, p: nat, log: KvLog)
    requires Sorted(store) && p < |store|
    requires |store[p].value| > 0 && |store[p].key| >= 8
    requires fromBlock <= BlockOf(store[p].key) <= toBlock
    requires Scan(store, fromBlock, toBlock, filter, decode).failure.None?
    ensures |store[p].key| >= 12 && decode(store[p].value).Some?
    ensures log in decode(store[p].value).value && Matches(log, filter)
      ==> Row(BlockOf(store[p].key), TxOf(store[p].key), log) in Scan(store, fromBlock, toBlock, filter, decode).rows
  {
    ScanCoversInRange(store, fromBlock, toBlock, filter, decode, p);
    var block, tx := BlockOf(store[p].key), TxOf(store[p].key);
    var logs := decode(store[p].value).value;
    var i := SeekIndex(store, SeekKey(fromBlock));
    var mine := RowsOf(block, tx, Retain(logs, filter));
    var before := ScanRows(store[i..p], toBlock, filter, decode).rows;
    var after := ScanRows(store[p + 1..], toBlock, filter, decode).rows;
    if log in logs && Matches(log, filter) {
      RowsOfMembers(block, tx, Retain(logs, filter), Row(block, tx, log));
      InSegment(before, mine, after, Row(block, tx, log));
    }
  }

  /** An element of the middle part of a concatenation is in the concatenation. */
  lemma InSegment(a: seq<Row>, b: seq<Row>, c: seq<Row>, x: Row)
    requires x in b
    ensures x in a + b + c
  {
    var k :| 0 <= k < |b| && b[k] == x;
    assert (a + b + c)[|a| + k] == x;
  }

  /** The entries from any position on of a sorted table are sorted. */
  lemma SortedSuffix(store: Store, i: nat)
    requires Sorted(store) && i <= |store|
    ensures Sorted(store[i..])
  {
    var suffix := store[i..];
    forall a, b | 0 <= a < b < |suffix| ensures LexLess(suffix[a].key, suffix[b].key) {
      assert suffix[a] == store[i + a] && suffix[b] == store[i + b];
    }
  }

  /** Rows come out ordered by (block, tx index) when the table is sorted. */
  lemma {:induction false} ScanOrdered(entries: Store, toBlock: u64, filter: Option<Address>, decode: Decoder)
    requires Sorted(entries)
    ensures RowsOrdered(ScanRows(entries, toBlock, filter, decode).rows)
  {
    if entries != [] {
      var tail := entries[1..];
      SortedSuffix(entries, 1);
      ScanOrdered(tail, toBlock, filter, decode);
      var step := StepEntry(entries[0], toBlock, filter, decode);
      if step.Emit? {
        EmitFacts(entries[0], toBlock, filter, decode);
        RunCons(entries, Body(toBlock, filter, decode));
        var head := step.rows;
        var rest := ScanRows(tail, toBlock, filter, decode).rows;
        forall a, b | 0 <= a < |head| && 0 <= b < |rest| ensures RowLe(head[a], rest[b]) {
          ScanSound(tail, toBlock, filter, decode, rest[b]);
          var j :| 0 <= j < StopIndex(tail, toBlock) && Produces(tail[j], toBlock, filter, decode, rest[b]);
          assert tail[j] == entries[j + 1];
          KeyOrderGivesRowOrder(entries[0].key, tail[j].key);
        }
        ConcatOrdered(head, rest);
      }
    }
  }

  /** The rows of a job over a sorted table come out ordered by (block, tx index). */
  lemma JobRowsOrdered(store: Store, fromBlock: u64, toBlock: u64, filter: Option<Address>, decode: Decoder)
    requires Sorted(store)
    ensures RowsOrdered(Scan(store, fromBlock, toBlock, filter, decode).rows)
  {
    SortedSuffix(store, SeekIndex(store, SeekKey(fromBlock)));
    ScanOrdered(store[SeekIndex(store, SeekKey(fromBlock))..], toBlock, filter, decode);
  }

  /** Two ordered runs, the first wholly before the second, make an ordered run. */
  lemma ConcatOrdered(x: seq<Row>, y: seq<Row>)
    requires RowsOrdered(x) && RowsOrdered(y)
    requires forall a, b :: 0 <= a < |x| && 0 <= b < |y| ==> RowLe(x[a], y[b])
    ensures RowsOrdered(x + y)
  {
    forall a, b | 0 <= a < b < |x + y| ensures RowLe((x + y)[a], (x + y)[b]) {
      if b < |x| {
        assert (x + y)[a] == x[a] && (x + y)[b] == x[b];
      } else if a < |x| {
        assert (x + y)[a] == x[a] && (x + y)[b] == y[b - |x|];
      } else {
        assert (x + y)[a] == y[a - |x|] && (x + y)[b] == y[b - |x|];
      }
    }
  }

  lemma Regroup(a: seq<Row>, b: seq<Row>, c: seq<Row>, d: seq<Row>)
    ensures a + b + (c + d) == a + b + c + d
  {
  }

  /** The inner `for log in logs` loop: push each row onto the buffer and count it. */
  method PushRows(chunk: seq<Row>, logCount: nat, rows: seq<Row>) returns (chunk': seq<Row>, logCount': nat)
    ensures chunk' == chunk + rows
    ensures logCount' == logCount + |rows|
  {
    chunk', logCount' := chunk, logCount;
    var j := 0;
    while j < |rows|
      invariant 0 <= j <= |rows|
      invariant chunk' == chunk + rows[..j]
      invariant logCount' == logCount + j
    {
      chunk' := chunk' + [rows[j]];
      logCount' := logCount' + 1;
      j := j + 1;
    }
    assert rows[..j] == rows;
  }

  /** Messages sent from inside the loop: chunks of more than LOG_CHUNK_SIZE rows. */
  predicate Flushed(msgs: seq<Message>)
  {
    forall k :: 0 <= k < |msgs| ==> msgs[k].Some? && |msgs[k].value.txs| > LOG_CHUNK_SIZE
  }

  /**
   * One entry's rows reach the batcher: push them, then send the buffer if it
   * now holds more than LOG_CHUNK_SIZE rows. The buffer never holds more than
   * LOG_CHUNK_SIZE rows between entries.
   */
  method BufferRows(sent: seq<Message>, chunk: seq<Row>, logCount: nat, rows: seq<Row>)
    returns (sent': seq<Message>, chunk': seq<Row>, logCount': nat)
    requires Flushed(sent) && |chunk| <= LOG_CHUNK_SIZE
    ensures Flushed(sent') && |chunk'| <= LOG_CHUNK_SIZE
    ensures Payload(sent') + chunk' == Payload(sent) + chunk + rows
    ensures logCount' == logCount + |rows|
    ensures |sent| <= |sent'| <= |sent| + 1 && sent'[..|sent|] == sent
    ensures |chunk| + |rows| <= LOG_CHUNK_SIZE ==> sent' == sent && chunk' == chunk + rows
    ensures |chunk| + |rows| > LOG_CHUNK_SIZE ==> sent' == sent + [Some(LogChunk(chunk + rows))] && chunk' == []
  {
    sent' := sent;
    chunk', logCount' := PushRows(chunk, logCount, rows);
    if |chunk'| > LOG_CHUNK_SIZE {
      PayloadSendChunk(sent, LogChunk(chunk'));
      sent' := sent + [Some(LogChunk(chunk'))];
      assert Payload(sent') + [] == Payload(sent) + chunk';
      chunk' := [];
    }
  }

  /**
   * The messages of a job that ran to the end: non-empty chunks, every one but
   * the last of more than LOG_CHUNK_SIZE rows, then the `None` terminator.
   */
  predicate Terminated(msgs: seq<Message>)
  {
    && |msgs| >= 1
    && msgs[|msgs| - 1].None?
    && (forall k :: 0 <= k < |msgs| - 1 ==> msgs[k].Some? && |msgs[k].value.txs| > 0)
    && (forall k :: 0 <= k < |msgs| - 2 ==> |msgs[k].value.txs| > LOG_CHUNK_SIZE)
  }

  /** After the loop: send a non-empty buffer, then the `None` terminator. */
  method Finish(sent: seq<Message>, chunk: seq<Row>) returns (sent': seq<Message>)
    requires Flushed(sent) && |chunk| <= LOG_CHUNK_SIZE
    ensures Payload(sent') == Payload(sent) + chunk
    ensures Terminated(sent')
    ensures |chunk| == 0 ==> |sent'| == |sent| + 1
    ensures |chunk| > 0 ==> |sent'| == |sent| + 2 && sent'[|sent|] == Some(LogChunk(chunk))
  {
    sent' := sent;
    if |chunk| > 0 {
      PayloadSendChunk(sent, LogChunk(chunk));
      sent' := sent' + [Some(LogChunk(chunk))];
    }
    assert forall k :: 0 <= k < |sent'| ==> sent'[k].Some? && |sent'[k].value.txs| > 0;
    PayloadSendTerminator(sent', []);
    ghost var chunks := sent';
    assert chunks + [None] + [] == chunks + [None];
    sent' := sent' + [None];
    assert Payload(sent) + chunk == Payload(chunks) by {
      if |chunk| == 0 {
        assert Payload(sent) + chunk == Payload(sent);
      }
    }
    assert forall k :: 0 <= k < |sent'| - 1 ==> sent'[k] == chunks[k];
  }

  /** One iteration of the scan loop, stated against the scan of the remaining entries. */
  lemma ScanStep(entries: Store, i: nat, toBlock: u64, filter: Option<Address>, decode: Decoder)
    requires i < |entries|
    ensures var step := StepEntry(entries[i], toBlock, filter, decode);
      var here := ScanRows(entries[i..], toBlock, filter, decode);
      var next := ScanRows(entries[i + 1..], toBlock, filter, decode);
      && (step.Stop? ==> here == ScanOutcome([], None))
      && (step.Fail? ==> here == ScanOutcome([], Some(step.error)))
      && (Continues(step) ==> here.rows == StepRows(step) + next.rows && here.failure == next.failure)
  {
    RunStep(entries, i, Body(toBlock, filter, decode));
  }

  /**
   * The loop of `execute_job`: seek, then hand each entry's rows to the
   * batcher until the scan stops; after the loop flush the rest and send the
   * terminator. On a failure the source panics: what was sent stays sent, the
   * buffered rows are lost and no terminator follows.
   */
  method ExecuteJob(store: Store, fromBlock: u64, toBlock: u64, filter: Option<Address>, decode: Decoder)
    returns (sent: seq<Message>, logCount: nat, failure: Option<ScanError>)
    ensures var s := Scan(store, fromBlock, toBlock, filter, decode);
      && failure == s.failure
      && logCount == |s.rows|
      && (failure.None? ==> Payload(sent) == s.rows)
      && (failure.Some? ==> Payload(sent) <= s.rows)
    ensures failure.Some? ==> Flushed(sent)
    ensures failure.None? ==> Terminated(sent)
  {
    var key := SeekKey(fromBlock);
    var entries := store[SeekIndex(store, key)..];
    ghost var total := ScanRows(entries, toBlock, filter, decode);
    ghost var rest := total;
    var chunk: seq<Row> := [];
    sent := [];
    logCount := 0;
    failure := None;
    var i := 0;
    assert entries[0..] == entries;
    while i < |entries|
      invariant 0 <= i <= |entries|
      invariant Flushed(sent) && |chunk| <= LOG_CHUNK_SIZE
      invariant rest == ScanRows(entries[i..], toBlock, filter, decode)
      invariant total.rows == Payload(sent) + chunk + rest.rows
      invariant total.failure == rest.failure
      invariant logCount == |Payload(sent)| + |chunk|
    {
      var step := StepEntry(entries[i], toBlock, filter, decode);
      ScanStep(entries, i, toBlock, filter, decode);
      if step.Stop? {
        break;
      }
      if step.Fail? {
        failure := Some(step.error);
        return;
      }
      ghost var next := ScanRows(entries[i + 1..], toBlock, filter, decode);
      Regroup(Payload(sent), chunk, StepRows(step), next.rows);
      sent, chunk, logCount := BufferRows(sent, chunk, logCount, StepRows(step));
      rest := next;
      i := i + 1;
    }
    assert total.rows == Payload(sent) + chunk by {
      if i == |entries| {
        assert entries[i..] == [];
      }
    }
    sent := Finish(sent, chunk);
  }
}

=== FILE: parquet.dfy ===
/**
 * Optional Parquet columns as the result writer hands them to the Parquet
 * library: a value vector and a vector of definition levels, where level 1
 * marks a present value and any lower level a null (the columns are flat,
 * so 1 is the maximum definition level; the writer only uses 0 and 1).
 *
 * The writer builds both vectors with one entry per row, pushing an empty
 * byte array as a placeholder for every null. The library's `write_batch`
 * reads the value vector densely instead: the k-th level equal to 1 takes
 * the k-th value, whatever its position. `WriteBatch` models that reading,
 * `Positional` the reading the writer intends, and `Compact` the value vector
 * that makes the two agree.
 */
module Parquet {
  import opened Wrappers
  import opened BigEndian

  /** A column's value vector and its definition levels. */
  datatype OptionalColumn = OptionalColumn(values: seq<Bytes>, levels: seq<int>)

  /** One value, real or placeholder, per row: the shape the writer builds. */
  predicate WellFormed(col: OptionalColumn)
  {
    |col.values| == |col.levels|
  }

  /** The number of present (level 1) entries among the levels. */
  function CountSet(levels: seq<int>): (n: nat)
    ensures n <= |levels|
  {
    if levels == [] then 0 else (if levels[0] == 1 then 1 else 0) + CountSet(levels[1..])
  }

  /** Counting over a prefix one longer adds that entry's contribution. */
  lemma {:induction false} CountSetSnoc(levels: seq<int>, i: nat)
    requires i < |levels|
    ensures CountSet(levels[..i + 1]) == CountSet(levels[..i]) + (if levels[i] == 1 then 1 else 0)
  {
    if i == 0 {
      assert levels[..1][1..] == [];
      assert levels[..0] == [];
    } else {
      assert levels[..i + 1][1..] == levels[1..][..i];
      assert levels[..i][1..] == levels[1..][..i - 1];
      CountSetSnoc(levels[1..], i - 1);
    }
  }

  /** The cell row i means: its value when the level marks it present, null otherwise. */
  function Cell(col: OptionalColumn, i: nat): Option<Bytes>
    requires WellFormed(col) && i < |col.levels|
  {
    if col.levels[i] == 1 then Some(col.values[i]) else None
  }

  /** The cells the rows mean. */
  function Positional(col: OptionalColumn): (cells: seq<Option<Bytes>>)
    requires WellFormed(col)
    ensures |cells| == |col.levels|
    ensures forall i :: 0 <= i < |cells| ==> cells[i] == Cell(col, i)
  {
    seq(|col.levels|, i requires 0 <= i < |col.levels| => Cell(col, i))
  }

  /**
   * The cells `write_batch(values, Some(levels), None)` stores: every level
   * becomes one cell, and each level 1 takes the next unused value. With
   * fewer values than present levels the library panics (`None` here);
   * values left over are not written.
   */
  function WriteBatch(values: seq<Bytes>, levels: seq<int>): (cells: Option<seq<Option<Bytes>>>)
    ensures cells.Some? <==> CountSet(levels) <= |values|
    ensures cells.Some? ==> |cells.value| == |levels|
    ensures cells.Some? ==> forall i :: 0 <= i < |levels| ==> (cells.value[i].Some? <==> levels[i] == 1)
    decreases |levels|
  {
    if levels == [] then Some([])
    else if levels[0] == 1 then
      if values == [] then None
      else match WriteBatch(values[1..], levels[1..])
        case None => None
        case Some(rest) => Some([Some(values[0])] + rest)
    else match WriteBatch(values, levels[1..])
      case None => None
      case Some(rest) => Some([None] + rest)
  }

  /** A present cell holds the value whose index is the number of present levels before it. */
  lemma {:induction false} WriteBatchTakesInOrder(values: seq<Bytes>, levels: seq<int>, i: nat)
    requires WriteBatch(values, levels).Some?
    requires i < |levels| && levels[i] == 1
    ensures CountSet(levels[..i]) < |values|
    ensures WriteBatch(values, levels).value[i] == Some(values[CountSet(levels[..i])])
  {
    CountSetSnoc(levels, i);
    PrefixCountBound(levels, i + 1);
    if i > 0 {
      assert levels[..i][1..] == levels[1..][..i - 1];
      if levels[0] == 1 {
        WriteBatchTakesInOrder(values[1..], levels[1..], i - 1);
      } else {
        WriteBatchTakesInOrder(values, levels[1..], i - 1);
      }
    } else {
      assert levels[..0] == [];
    }
  }

  /** A prefix has no more present levels than the whole. */
  lemma {:induction false} PrefixCountBound(levels: seq<int>, k: nat)
    requires k <= |levels|
    ensures CountSet(levels[..k]) <= CountSet(levels)
  {
    if k == 0 {
      assert levels[..0] == [];
    } else {
      assert levels[..k][1..] == levels[1..][..k - 1];
      PrefixCountBound(levels[1..], k - 1);
    }
  }

  /** The present values only, in row order: what `write_batch` expects. */
  function Compact(col: OptionalColumn): (values: seq<Bytes>)
    requires WellFormed(col)
    ensures |values| == CountSet(col.levels)
    decreases |col.levels|
  {
    if col.levels == [] then []
    else
      var rest := Compact(OptionalColumn(col.values[1..], col.levels[1..]));
      if col.levels[0] == 1 then [col.values[0]] + rest else rest
  }

  /** The compacted vector holds each present value at its rank among the present ones. */
  lemma {:induction false} CompactRank(col: OptionalColumn, i: nat)
    requires WellFormed(col)
    requires i < |col.levels| && col.levels[i] == 1
    ensures CountSet(col.levels[..i]) < |Compact(col)|
    ensures Compact(col)[CountSet(col.levels[..i])] == col.values[i]
    decreases |col.levels|
  {
    var levels := col.levels;
    CountSetSnoc(levels, i);
    PrefixCountBound(levels, i + 1);
    var tail := OptionalColumn(col.values[1..], levels[1..]);
    if i > 0 {
      assert levels[..i][1..] == levels[1..][..i - 1];
      CompactRank(tail, i - 1);
    } else {
      assert levels[..0] == [];
    }
  }

  /**
   * Writing the compacted values stores exactly the cells the rows mean:
   * every present value lands on its own row.
   */
  lemma CompactWritesPositional(col: OptionalColumn)
    requires WellFormed(col)
    ensures WriteBatch(Compact(col), col.levels) == Some(Positional(col))
  {
    var cells := WriteBatch(Compact(col), col.levels);
    var want := Positional(col);
    forall i | 0 <= i < |col.levels| ensures cells.value[i] == want[i] {
      if col.levels[i] == 1 {
        CompactRank(col, i);
        WriteBatchTakesInOrder(Compact(col), col.levels, i);
      }
    }
    assert cells.value == want;
  }

  /**
   * The cells a reader finds for a column after the corrected write, which
   * hands `write_batch` only the present values (`Compact`). They are the
   * positional reading of the writer's vectors. The write as the writer
   * performs it is `StoredAsWritten`.
   */
  function Stored(col: OptionalColumn): (cells: seq<Option<Bytes>>)
    requires WellFormed(col)
    ensures cells == Positional(col)
  {
    CompactWritesPositional(col);
    WriteBatch(Compact(col), col.levels).value
  }

  /**
   * The cells a reader finds for a column as the writer writes it: the
   * placeholder vector itself is handed to `write_batch`. Every level still
   * gives one cell, null exactly where the level is 0.
   */
  function StoredAsWritten(col: OptionalColumn): (cells: seq<Option<Bytes>>)
    requires WellFormed(col)
    ensures |cells| == |col.levels|
    ensures forall i :: 0 <= i < |cells| ==> (cells[i].Some? <==> col.levels[i] == 1)
  {
    WriteBatch(col.values, col.levels).value
  }

  /** With every level present the placeholder vector is already compact. */
  lemma {:induction false} CompactAllPresent(col: OptionalColumn)
    requires WellFormed(col)
    requires forall i :: 0 <= i < |col.levels| ==> col.levels[i] == 1
    ensures Compact(col) == col.values
    decreases |col.levels|
  {
    if col.levels != [] {
      var tail := OptionalColumn(col.values[1..], col.levels[1..]);
      assert forall i :: 0 <= i < |tail.levels| ==> tail.levels[i] == col.levels[i + 1];
      CompactAllPresent(tail);
      assert col.values == [col.values[0]] + col.values[1..];
    }
  }

  /**
   * A column without nulls is stored correctly as written: the shift needs a
   * placeholder.
   */
  lemma AsWrittenAgreesWithoutNulls(col: OptionalColumn)
    requires WellFormed(col)
    requires forall i :: 0 <= i < |col.levels| ==> col.levels[i] == 1
    ensures StoredAsWritten(col) == Stored(col)
  {
    CompactAllPresent(col);
  }

  /**
   * A null followed by a value, as written: the value's cell receives the
   * null's placeholder.
   */
  lemma NullThenValueAsWritten(t: Bytes)
    ensures WriteBatch([[], t], [0, 1]) == Some([None, Some([])])
  {
    var values: seq<Bytes> := [[], t];
    var levels: seq<int> := [0, 1];
    var l1: seq<int> := [1];
    assert levels[1..] == l1 && l1[1..] == [];
    var none: seq<Option<Bytes>> := [];
    assert WriteBatch(values[1..], l1[1..]) == Some(none);
    var c1: seq<Option<Bytes>> := [Some([])];
    assert values[0] == [] && [Some(values[0])] + none == c1;
    assert WriteBatch(values, l1) == Some(c1);
    assert [None] + c1 == [None, Some([])];
  }

  /**
   * The column shape the writer's own Parquet test writes: a value, a null
   * with its empty placeholder, and the same value again. Handing the
   * placeholder vector to `write_batch` stores the placeholder in the third
   * row, while the rows mean the value there.
   */
  lemma PlaceholderShiftsValues(h: Bytes)
    requires h != []
    ensures var col := OptionalColumn([h, [], h], [1, 0, 1]);
      && WellFormed(col)
      && Positional(col) == [Some(h), None, Some(h)]
      && WriteBatch(col.values, col.levels) == Some([Some(h), None, Some([])])
      && WriteBatch(col.values, col.levels) != Some(Positional(col))
  {
    var col := OptionalColumn([h, [], h], [1, 0, 1]);
    var v1, v2: seq<Bytes> := [[], h], [h];
    assert col.values[1..] == v1 && v1[1..] == v2;
    var l1, l2: seq<int> := [0, 1], [1];
    assert col.levels[1..] == l1 && l1[1..] == l2 && l2[1..] == [];
    var c2: seq<Option<Bytes>> := [Some([])];
    var none: seq<Option<Bytes>> := [];
    assert WriteBatch(v2, l2[1..]) == Some(none);
    assert v1[0] == [] && [Some(v1[0])] + none == c2;
    assert WriteBatch(v1, l2) == Some(c2);
    var c1: seq<Option<Bytes>> := [None, Some([])];
    assert [None] + c2 == c1;
    assert WriteBatch(v1, l1) == Some(c1);
    assert [Some(h)] + c1 == [Some(h), None, Some([])];
    assert Positional(col) == [Some(h), None, Some(h)];
    assert Positional(col)[2] != Some([]);
  }
}

=== FILE: pipeline.dfy ===
/**
 * One job end to end: `execute_job` scans and batches while the writer task
 * drains the channel into row groups. The channel is the list of messages
 * the scanner sends; the writer reads them in order.
 */
module Pipeline {
  import opened Wrappers
  import opened Types
  import opened Engine
  import opened Storage

  /** The views of a prefix of some rows are a prefix of their views. */
  lemma ViewsPrefix(a: seq<Row>, b: seq<Row>)
    requires a <= b
    ensures Views(a) <= Views(b)
  {
    ViewsConcat(a, b[|a|..]);
    assert a + b[|a|..] == b;
  }

  /** A file whose last row group is non-empty has rows. */
  lemma LastGroupHasRows(file: seq<RowGroup>)
    requires forall k :: 0 <= k < |file| ==> Aligned(file[k])
    requires file != [] && Height(file[|file| - 1]) > 0
    ensures |ReadFile(file)| > 0
  {
  }

  /** The writer consumes every chunk of a job that ran to the end, and stops at the terminator. */
  lemma TerminatedDelivers(msgs: seq<Message>)
    requires Terminated(msgs)
    ensures Delivered(msgs) == |msgs| - 1
  {
  }

  /** The writer consumes every chunk sent before a panic. */
  lemma FlushedDelivers(msgs: seq<Message>)
    requires Flushed(msgs)
    ensures Delivered(msgs) == |msgs|
  {
  }

  /**
   * A job: the scanner's messages drained by the writer. On success the file
   * reads back as the views of exactly the scanned rows; after a failure it
   * holds a prefix of them. Every row group is non-empty, and every row
   * group but the last, or every one after a failure, holds more than
   * LOG_CHUNK_SIZE rows. A job without rows writes a file without row groups.
   */
  method RunJob(store: Store, fromBlock: u64, toBlock: u64, filter: Option<Address>, decode: Decoder)
    returns (file: seq<RowGroup>, logCount: nat, failure: Option<ScanError>)
    ensures forall k :: 0 <= k < |file| ==> Aligned(file[k])
    ensures var s := Scan(store, fromBlock, toBlock, filter, decode);
      && failure == s.failure
      && logCount == |s.rows|
      && (failure.None? ==> ReadFile(file) == Views(s.rows))
      && (failure.Some? ==> ReadFile(file) <= Views(s.rows))
      && (failure.None? ==> (file == [] <==> s.rows == []))
    ensures forall k :: 0 <= k < |file| ==> Height(file[k]) > 0
    ensures forall k :: 0 <= k < |file| - 1 ==> Height(file[k]) > LOG_CHUNK_SIZE
    ensures failure.Some? ==> forall k :: 0 <= k < |file| ==> Height(file[k]) > LOG_CHUNK_SIZE
  {
    var sent;
    sent, logCount, failure := ExecuteJob(store, fromBlock, toBlock, filter, decode);
    ghost var s := Scan(store, fromBlock, toBlock, filter, decode);
    file := RunWriter(sent);
    if failure.None? {
      TerminatedDelivers(sent);
      if file != [] {
        LastGroupHasRows(file);
      }
    } else {
      FlushedDelivers(sent);
      ViewsPrefix(Payload(sent), s.rows);
    }
  }
}

=== FILE: scenario.dfy ===
/**
 * A small table: one entry per block from 100 to 105, all at transaction
 * index 0, where only blocks 101 and 104 carry a payload, each decoding to
 * one log of contract `a`. Scans over it with and without a range end inside
 * the table, and with a filter on another contract.
 */
module Scenario {
  import opened Wrappers
  import opened BigEndian
  import opened Types
  import opened Engine

  /** Keys for blocks 100 to 105 at transaction index 0, in this order. */
  predicate BlockKeys(keys: seq<Bytes>)
  {
    && |keys| == 6
    && forall i :: 0 <= i < 6 ==> |keys[i]| == 12 && BlockOf(keys[i]) == 100 + i && TxOf(keys[i]) == 0
  }

  /** The table's own key format provides such keys. */
  lemma BlockKeysExist()
    ensures BlockKeys(seq(6, i requires 0 <= i < 6 => EntryKey(100 + i, 0)))
  {
    var keys := seq(6, i requires 0 <= i < 6 => EntryKey(100 + i, 0));
    forall i | 0 <= i < 6 ensures BlockOf(keys[i]) == 100 + i && TxOf(keys[i]) == 0 {
      EntryKeyReadsBack(100 + i, 0);
    }
  }

  /** The six entries of the table, in key order. */
  function Table(keys: seq<Bytes>, v101: Bytes, v104: Bytes): Store
    requires BlockKeys(keys)
  {
    [Entry(keys[0], []), Entry(keys[1], v101), Entry(keys[2], []),
     Entry(keys[3], []), Entry(keys[4], v104), Entry(keys[5], [])]
  }

  /** The table with its empty entries removed. */
  lemma TableNonEmpty(keys: seq<Bytes>, v101: Bytes, v104: Bytes)
    requires BlockKeys(keys) && v101 != [] && v104 != []
    ensures NonEmpty(Table(keys, v101, v104)) == [Entry(keys[1], v101), Entry(keys[4], v104)]
  {
    var t := Table(keys, v101, v104);
    var e: Store := [];
    var e4: Store := [Entry(keys[4], v104)];
    var s5, s4, s3 := t[5..], t[4..], t[3..];
    assert s5[1..] == e && s4[1..] == s5 && s3[1..] == s4;
    assert NonEmpty(s5) == e;
    assert NonEmpty(s4) == e4 by {
      assert [s4[0]] + NonEmpty(s5) == e4;
    }
    assert NonEmpty(s3) == e4;
    var s2, s1 := t[2..], t[1..];
    assert s2[1..] == s3 && s1[1..] == s2 && t[1..] == s1;
    assert NonEmpty(s2) == e4;
    assert NonEmpty(s1) == [Entry(keys[1], v101)] + e4;
    assert NonEmpty(t) == NonEmpty(s1);
    assert [Entry(keys[1], v101)] + e4 == [Entry(keys[1], v101), Entry(keys[4], v104)];
  }

  /** The scan of the whole table from block 100 is the scan of its two non-empty entries. */
  lemma ScanOfTable(keys: seq<Bytes>, v101: Bytes, v104: Bytes, toBlock: u64, filter: Option<Address>, decode: Decoder)
    requires BlockKeys(keys) && v101 != [] && v104 != []
    ensures Scan(Table(keys, v101, v104), 100, toBlock, filter, decode)
         == ScanRows([Entry(keys[1], v101), Entry(keys[4], v104)], toBlock, filter, decode)
  {
    var t := Table(keys, v101, v104);
    SeekKeyOrder(keys[0], 100);
    assert SeekIndex(t, SeekKey(100)) == 0;
    assert t[0..] == t;
    EmptyValuesIgnored(t, toBlock, filter, decode);
    TableNonEmpty(keys, v101, v104);
  }

  /** The logs of contract `a`: one in block 101, one in block 104. */
  predicate Payloads(decode: Decoder, a: Address, l1: KvLog, l2: KvLog, v101: Bytes, v104: Bytes)
  {
    && v101 != [] && v104 != []
    && decode(v101) == Some([l1]) && decode(v104) == Some([l2])
    && l1.address == a && l2.address == a
  }

  /** An in-range entry whose payload is one log yields that log's row when the filter keeps it, and no row otherwise. */
  lemma OneLogStep(e: Entry, toBlock: u64, filter: Option<Address>, decode: Decoder, l: KvLog)
    requires |e.key| == 12 && |e.value| > 0 && BlockOf(e.key) <= toBlock && decode(e.value) == Some([l])
    ensures Matches(l, filter) ==> StepEntry(e, toBlock, filter, decode) == Emit([Row(BlockOf(e.key), TxOf(e.key), l)])
    ensures !Matches(l, filter) ==> StepEntry(e, toBlock, filter, decode) == Emit([])
  {
    if filter.Some? {
      KeepAddressConcat([l], [], filter.value);
    }
  }

  /** The loop over two entries that both yield rows. */
  lemma TwoSteps(e1: Entry, e2: Entry, body: Entry -> Step)
    requires body(e1).Emit? && body(e2).Emit?
    ensures Run([e1, e2], body) == ScanOutcome(body(e1).rows + body(e2).rows, None)
  {
    var entries := [e1, e2];
    assert entries[1..] == [e2] && entries[1..][1..] == [];
    RunCons(entries, body);
    RunCons(entries[1..], body);
    assert body(e2).rows + [] == body(e2).rows;
  }

  /** Without a filter, blocks 100 to 105 give the two logs, block 101's first. */
  lemma WholeRange(keys: seq<Bytes>, decode: Decoder, a: Address, l1: KvLog, l2: KvLog, v101: Bytes, v104: Bytes)
    requires BlockKeys(keys) && Payloads(decode, a, l1, l2, v101, v104)
    ensures Scan(Table(keys, v101, v104), 100, 105, None, decode) == ScanOutcome([Row(101, 0, l1), Row(104, 0, l2)], None)
  {
    ScanOfTable(keys, v101, v104, 105, None, decode);
    var e1, e4 := Entry(keys[1], v101), Entry(keys[4], v104);
    OneLogStep(e1, 105, None, decode, l1);
    OneLogStep(e4, 105, None, decode, l2);
    TwoSteps(e1, e4, Body(105, None, decode));
  }

  /** Ending the range at block 103 stops the scan at block 104's entry: only block 101's log remains. */
  lemma RangeEndsEarly(keys: seq<Bytes>, decode: Decoder, a: Address, l1: KvLog, l2: KvLog, v101: Bytes, v104: Bytes)
    requires BlockKeys(keys) && Payloads(decode, a, l1, l2, v101, v104)
    ensures Scan(Table(keys, v101, v104), 100, 103, None, decode) == ScanOutcome([Row(101, 0, l1)], None)
  {
    ScanOfTable(keys, v101, v104, 103, None, decode);
    var e1, e4 := Entry(keys[1], v101), Entry(keys[4], v104);
    var body := Body(103, None, decode);
    OneLogStep(e1, 103, None, decode, l1);
    assert body(e4).Stop?;
    var entries := [e1, e4];
    assert entries[1..] == [e4];
    RunCons(entries, body);
    assert [Row(101, 0, l1)] + [] == [Row(101, 0, l1)];
  }

  /** Filtering on another contract keeps no row, and nothing fails. */
  lemma OtherContract(keys: seq<Bytes>, decode: Decoder, a: Address, b: Address, l1: KvLog, l2: KvLog, v101: Bytes, v104: Bytes)
    requires BlockKeys(keys) && Payloads(decode, a, l1, l2, v101, v104) && a != b
    ensures Scan(Table(keys, v101, v104), 100, 105, Some(b), decode) == ScanOutcome([], None)
  {
    ScanOfTable(keys, v101, v104, 105, Some(b), decode);
    var e1, e4 := Entry(keys[1], v101), Entry(keys[4], v104);
    OneLogStep(e1, 105, Some(b), decode, l1);
    OneLogStep(e4, 105, Some(b), decode, l2);
    TwoSteps(e1, e4, Body(105, Some(b), decode));
  }
}

=== FILE: storage.dfy ===
/**
 * The result writer: it receives chunks of rows over the channel and writes
 * one Parquet row group per chunk, with the nine columns
 *
 *   block_n INT64, tx_n INT32, contract BYTE_ARRAY, op_code INT32 (all required),
 *   topic0 .. topic3, data BYTE_ARRAY (all optional).
 *
 * A row group is modelled as its column vectors; an optional column is a
 * value vector with a placeholder for every null plus its definition levels
 * (module Parquet). What a reader of the file sees of one row is a `LogView`.
 */
module Storage {
  import opened Wrappers
  import opened BigEndian
  import opened Types
  import opened Parquet

  /** `n as i64` for a u64: the same 64 bits read as two's complement. */
  function AsI64(n: u64): (r: int)
    ensures -0x8000_0000_0000_0000 <= r < 0x8000_0000_0000_0000
  {
    if n < 0x8000_0000_0000_0000 then n else n - 0x1_0000_0000_0000_0000
  }

  /** `n as i32` for an unsigned n (a u32 or a `usize` length): its low 32 bits read as two's complement. */
  function AsI32(n: nat): (r: int)
    ensures -0x8000_0000 <= r < 0x8000_0000
  {
    var low := n % 0x1_0000_0000;
    if low < 0x8000_0000 then low else low - 0x1_0000_0000
  }

  /** Each cast keeps the low bits: the signed result is congruent to its input. */
  lemma CastsKeepLowBits(n: u64, m: nat)
    ensures (AsI64(n) - n) % 0x1_0000_0000_0000_0000 == 0
    ensures (AsI32(m) - m) % 0x1_0000_0000 == 0
  {
  }

  /** The casts lose nothing: different block numbers, or different u32 values, stay different. */
  lemma CastsInjective(a: u64, b: u64, x: u32, y: u32)
    ensures AsI64(a) == AsI64(b) ==> a == b
    ensures AsI32(x) == AsI32(y) ==> x == y
  {
  }

  /** `topics.get(k)`. */
  function TopicAt(topics: seq<H256>, k: nat): Option<Bytes>
  {
    if k < |topics| then Some(topics[k]) else None
  }

  /** The data a reader sees for a log's payload: absent and empty both read as null. */
  function DataCell(data: Option<Bytes>): Option<Bytes>
  {
    if data.Some? && data.value != [] then data else None
  }

  /** One row of the file as a reader sees it. */
  datatype LogView = LogView(
    block: int, tx: int, contract: Bytes, opCode: int,
    topics: seq<Option<Bytes>>, data: Option<Bytes>)

  /**
   * What the file should hold for a row: the block number and transaction
   * index cast to the signed column types, the contract address, the topic
   * count as `op_code`, the first four topics and the non-empty data.
   */
  function ViewOf(row: Row): (v: LogView)
    ensures (v.block - row.block) % 0x1_0000_0000_0000_0000 == 0 && (v.tx - row.tx) % 0x1_0000_0000 == 0
    ensures -0x8000_0000_0000_0000 <= v.block < 0x8000_0000_0000_0000 && -0x8000_0000 <= v.tx < 0x8000_0000
    ensures v.contract == row.log.address
    ensures v.opCode == AsI32(|row.log.topics|)
    ensures |v.topics| == 4
    ensures forall k :: 0 <= k < |v.topics| ==> (v.topics[k].Some? <==> k < |row.log.topics|)
    ensures forall k :: 0 <= k < |v.topics| && k < |row.log.topics| ==> v.topics[k] == Some(row.log.topics[k])
    ensures v.data.Some? ==> v.data == row.log.data && v.data.value != []
  {
    var log := row.log;
    LogView(
      AsI64(row.block), AsI32(row.tx), log.address, AsI32(|log.topics|),
      [TopicAt(log.topics, 0), TopicAt(log.topics, 1), TopicAt(log.topics, 2), TopicAt(log.topics, 3)],
      DataCell(log.data))
  }

  /** A log with at most four topics and without an empty payload can be told from its view. */
  lemma ViewDeterminesRow(r1: Row, r2: Row)
    requires |r1.log.topics| <= 4 && |r2.log.topics| <= 4
    requires r1.log.data != Some([]) && r2.log.data != Some([])
    requires ViewOf(r1) == ViewOf(r2)
    ensures r1 == r2
  {
    CastsInjective(r1.block, r2.block, r1.tx, r2.tx);
    var t1, t2 := r1.log.topics, r2.log.topics;
    assert |t1| == |t2|;
    forall k | 0 <= k < |t1| ensures t1[k] == t2[k] {
      assert ViewOf(r1).topics[k] == ViewOf(r2).topics[k];
    }
  }

  /** The value of a cell as a sequence of zero or one values. */
  function Present(cell: Option<Bytes>): (values: seq<Bytes>)
    ensures |values| <= 1
  {
    if cell.Some? then [cell.value] else []
  }

  /** The present values among some cells, in order. */
  function Collect(cells: seq<Option<Bytes>>): (values: seq<Bytes>)
    ensures |values| <= |cells|
  {
    if cells == [] then [] else Present(cells[0]) + Collect(cells[1..])
  }

  /** Collecting a cell in front of others puts its value in front of theirs. */
  lemma CollectCons(cell: Option<Bytes>, rest: seq<Option<Bytes>>)
    ensures Collect([cell] + rest) == Present(cell) + Collect(rest)
  {
    assert ([cell] + rest)[1..] == rest;
  }

  /** Collecting four cells concatenates their values. */
  lemma CollectFour(cells: seq<Option<Bytes>>)
    requires |cells| == 4
    ensures Collect(cells) == Present(cells[0]) + (Present(cells[1]) + (Present(cells[2]) + Present(cells[3])))
  {
    var t1 := cells[1..];
    var t2 := t1[1..];
    var t3 := t2[1..];
    assert t3[1..] == [];
    CollectCons(t3[0], t3[1..]);
    assert [t3[0]] + t3[1..] == t3;
    CollectCons(t2[0], t3);
    assert [t2[0]] + t3 == t2;
    CollectCons(t1[0], t2);
    assert [t1[0]] + t2 == t1;
    CollectCons(cells[0], t1);
    assert [cells[0]] + t1 == cells;
  }

  /**
   * For a log with at most four topics, collecting the present topic cells in
   * column order gives the topic list back.
   */
  lemma TopicsRoundTrip(row: Row)
    requires |row.log.topics| <= 4
    ensures Collect(ViewOf(row).topics) == row.log.topics
  {
    var t := row.log.topics;
    var a, b, c, d := TopicAt(t, 0), TopicAt(t, 1), TopicAt(t, 2), TopicAt(t, 3);
    CollectFour(ViewOf(row).topics);
    var rest := Present(b) + (Present(c) + Present(d));
    if |t| == 0 {
      assert Present(a) + rest == t;
    } else if |t| == 1 {
      assert Present(a) + rest == [t[0]] == t;
    } else if |t| == 2 {
      assert rest == [t[1]];
      assert Present(a) + rest == [t[0], t[1]] == t;
    } else if |t| == 3 {
      assert rest == [t[1], t[2]];
      assert Present(a) + rest == [t[0], t[1], t[2]] == t;
    } else {
      assert rest == [t[1], t[2], t[3]];
      assert Present(a) + rest == [t[0], t[1], t[2], t[3]] == t;
    }
  }

  /**
   * `op_code` counts every topic, also beyond the four topic columns, as long
   * as the count fits the signed 32-bit column; the topic columns hold the
   * first four topics only.
   */
  lemma OpCodeCountsAllTopics(row: Row)
    requires |row.log.topics| < 0x8000_0000
    ensures ViewOf(row).opCode == |row.log.topics|
    ensures |ViewOf(row).topics| == 4
    ensures forall k :: 0 <= k < 4 ==> (ViewOf(row).topics[k].Some? <==> k < |row.log.topics|)
    ensures forall k :: 0 <= k < 4 && k < |row.log.topics| ==> ViewOf(row).topics[k] == Some(row.log.topics[k])
  {
  }

  /** The data cell holds the payload exactly when the payload is present and non-empty. */
  lemma DataRoundTrip(row: Row)
    ensures ViewOf(row).data.Some? <==> row.log.data.Some? && row.log.data.value != []
    ensures ViewOf(row).data.Some? ==> ViewOf(row).data == row.log.data
  {
  }

  /** An empty payload and a missing one are written alike. */
  lemma EmptyDataReadsAsAbsent(block: u64, tx: u32, address: Address, topics: seq<H256>)
    ensures ViewOf(Row(block, tx, KvLog(address, topics, Some([]))))
         == ViewOf(Row(block, tx, KvLog(address, topics, None)))
  {
  }

  /** The column vectors of one row group. */
  datatype RowGroup = RowGroup(
    blockN: seq<int>, txN: seq<int>, contract: seq<Bytes>, opCode: seq<int>,
    topic0: OptionalColumn, topic1: OptionalColumn, topic2: OptionalColumn, topic3: OptionalColumn,
    data: OptionalColumn)

  /** The number of rows in a row group. */
  function Height(g: RowGroup): nat
  {
    |g.blockN|
  }

  /** An optional column of n rows in the writer's shape. */
  predicate ColumnOf(col: OptionalColumn, n: nat)
  {
    WellFormed(col) && |col.levels| == n
  }

  /** All nine columns hold one entry per row. */
  predicate Aligned(g: RowGroup)
  {
    var n := Height(g);
    && |g.txN| == n && |g.contract| == n && |g.opCode| == n
    && ColumnOf(g.topic0, n) && ColumnOf(g.topic1, n) && ColumnOf(g.topic2, n) && ColumnOf(g.topic3, n)
    && ColumnOf(g.data, n)
  }

  /**
   * Row i of a written row group as a reader finds it after the corrected
   * write (`Stored`): the positional reading of the column vectors.
   */
  function ReadRow(g: RowGroup, i: nat): LogView
    requires Aligned(g) && i < Height(g)
  {
    LogView(
      g.blockN[i], g.txN[i], g.contract[i], g.opCode[i],
      [Stored(g.topic0)[i], Stored(g.topic1)[i], Stored(g.topic2)[i], Stored(g.topic3)[i]],
      Stored(g.data)[i])
  }

  /** Every row of a row group, in order. */
  function ReadGroup(g: RowGroup): (views: seq<LogView>)
    requires Aligned(g)
    ensures |views| == Height(g)
  {
    seq(Height(g), i requires 0 <= i < Height(g) => ReadRow(g, i))
  }

  /** The row group with no rows, as each chunk starts. */
  function EmptyGroup(): (g: RowGroup)
    ensures Aligned(g) && Height(g) == 0
  {
    var none := OptionalColumn([], []);
    RowGroup([], [], [], [], none, none, none, none, none)
  }

  /**
   * `save_topic`: a present topic is pushed with level 1, a missing one as an
   * empty placeholder with level 0. The cell it adds reads back as the topic
   * and the cells before it are unchanged.
   */
  function SaveTopic(col: OptionalColumn, topic: Option<Bytes>): (r: OptionalColumn)
    requires WellFormed(col)
    ensures WellFormed(r) && |r.levels| == |col.levels| + 1
    ensures Positional(r)[..|col.levels|] == Positional(col)
    ensures Positional(r)[|col.levels|] == topic
    ensures r.levels[|col.levels|] == 0 || r.levels[|col.levels|] == 1
    ensures r.levels[|col.levels|] == 0 ==> r.values[|col.values|] == []
  {
    var r := match topic
      case Some(t) => OptionalColumn(col.values + [t], col.levels + [1])
      case None => OptionalColumn(col.values + [[]], col.levels + [0]);
    assert Positional(r)[..|col.levels|] == Positional(col);
    r
  }

  /**
   * `save_binary`: non-empty data is pushed with level 1; missing or empty
   * data becomes an empty placeholder with level 0. The cell it adds reads
   * back as the data exactly when the data is non-empty, and the cells before
   * it are unchanged.
   */
  function SaveBinary(col: OptionalColumn, binary: Option<Bytes>): (r: OptionalColumn)
    requires WellFormed(col)
    ensures WellFormed(r) && |r.levels| == |col.levels| + 1
    ensures Positional(r)[..|col.levels|] == Positional(col)
    ensures Positional(r)[|col.levels|].Some? <==> binary.Some? && binary.value != []
    ensures Positional(r)[|col.levels|].Some? ==> Positional(r)[|col.levels|].value == binary.value
    ensures r.levels[|col.levels|] == 0 || r.levels[|col.levels|] == 1
    ensures r.levels[|col.levels|] == 0 ==> r.values[|col.values|] == []
  {
    var r := match binary
      case Some(data) =>
        if data == [] then OptionalColumn(col.values + [[]], col.levels + [0])
        else OptionalColumn(col.values + [data], col.levels + [1])
      case None => OptionalColumn(col.values + [[]], col.levels + [0]);
    assert Positional(r)[..|col.levels|] == Positional(col);
    r
  }

  /**
   * One pass of the per-row loop: the row's values are pushed onto every
   * column. The new last row reads back as the row's view and the earlier
   * rows are unchanged.
   */
  function AddRow(g: RowGroup, row: Row): (g': RowGroup)
    requires Aligned(g)
    ensures Aligned(g') && Height(g') == Height(g) + 1
    ensures forall i :: 0 <= i < Height(g) ==> ReadRow(g', i) == ReadRow(g, i)
    ensures ReadRow(g', Height(g)) == ViewOf(row)
  {
    var log := row.log;
    var g' := RowGroup(
      g.blockN + [AsI64(row.block)], g.txN + [AsI32(row.tx)], g.contract + [log.address],
      g.opCode + [AsI32(|log.topics|)],
      SaveTopic(g.topic0, TopicAt(log.topics, 0)), SaveTopic(g.topic1, TopicAt(log.topics, 1)),
      SaveTopic(g.topic2, TopicAt(log.topics, 2)), SaveTopic(g.topic3, TopicAt(log.topics, 3)),
      SaveBinary(g.data, log.data));
    assert forall i :: 0 <= i < Height(g) ==> Stored(g'.topic0)[i] == Stored(g.topic0)[i];
    g'
  }

  /** The views of a sequence of rows. */
  function Views(rows: seq<Row>): (views: seq<LogView>)
    ensures |views| == |rows|
    ensures forall i :: 0 <= i < |rows| ==> views[i] == ViewOf(rows[i])
  {
    seq(|rows|, i requires 0 <= i < |rows| => ViewOf(rows[i]))
  }

  /** Views of a concatenation are the concatenation of the views. */
  lemma ViewsConcat(a: seq<Row>, b: seq<Row>)
    ensures Views(a + b) == Views(a) + Views(b)
  {
    assert forall i :: 0 <= i < |a + b| ==> Views(a + b)[i] == (Views(a) + Views(b))[i];
  }

  /** Adding a row extends the rows read back by that row's view. */
  lemma ReadGroupAddRow(g: RowGroup, row: Row)
    requires Aligned(g)
    ensures ReadGroup(AddRow(g, row)) == ReadGroup(g) + [ViewOf(row)]
  {
    var g' := AddRow(g, row);
    var want := ReadGroup(g) + [ViewOf(row)];
    forall i | 0 <= i < Height(g') ensures ReadGroup(g')[i] == want[i] {
      if i < Height(g) {
        assert ReadGroup(g')[i] == ReadRow(g', i) == ReadRow(g, i) == ReadGroup(g)[i];
      }
    }
    assert ReadGroup(g') == want;
  }

  /** Row group g is the one the writer builds for a chunk of these rows. */
  predicate GroupFor(g: RowGroup, rows: seq<Row>)
  {
    Aligned(g) && Height(g) == |rows| && ReadGroup(g) == Views(rows)
  }

  /** Adding a row to the row group of some rows gives the row group of the rows extended by it. */
  lemma GroupForAddRow(g: RowGroup, rows: seq<Row>, row: Row)
    requires GroupFor(g, rows)
    ensures GroupFor(AddRow(g, row), rows + [row])
  {
    ReadGroupAddRow(g, row);
    ViewsConcat(rows, [row]);
  }

  /** One pass of the per-row loop, stated against the rows seen so far. */
  method AppendRow(g: RowGroup, ghost rows: seq<Row>, row: Row) returns (g': RowGroup)
    requires GroupFor(g, rows)
    ensures GroupFor(g', rows + [row])
  {
    GroupForAddRow(g, rows, row);
    g' := AddRow(g, row);
  }

  /** The per-row loop over one chunk: the row group it builds reads back as the chunk's views. */
  method BuildRowGroup(rows: seq<Row>) returns (g: RowGroup)
    ensures Aligned(g) && Height(g) == |rows|
    ensures ReadGroup(g) == Views(rows)
  {
    g := EmptyGroup();
    var i := 0;
    assert rows[..0] == [];
    while i < |rows|
      invariant 0 <= i <= |rows|
      invariant GroupFor(g, rows[..i])
    {
      g := AppendRow(g, rows[..i], rows[i]);
      assert rows[..i] + [rows[i]] == rows[..i + 1];
      i := i + 1;
    }
    assert rows[..i] == rows;
  }

  /** The `topic2` vectors after a row with two topics and then a row with a third topic t. */
  lemma TopicColumnAfterTwoRows(r1: Row, r2: Row)
    requires |r1.log.topics| == 2 && |r2.log.topics| == 3
    ensures AddRow(AddRow(EmptyGroup(), r1), r2).topic2 == OptionalColumn([[], r2.log.topics[2]], [0, 1])
  {
    var t := r2.log.topics[2];
    var none := OptionalColumn([], []);
    var v1: seq<Bytes>, l1: seq<int> := [[]], [0];
    var c1 := SaveTopic(none, None);
    assert c1 == OptionalColumn(none.values + [[]], none.levels + [0]);
    assert none.values + [[]] == v1 && none.levels + [0] == l1;
    var c2 := SaveTopic(c1, Some(t));
    assert c2 == OptionalColumn(v1 + [t], l1 + [1]);
    assert v1 + [t] == [[], t] && l1 + [1] == [0, 1];
    assert TopicAt(r1.log.topics, 2) == None && TopicAt(r2.log.topics, 2) == Some(t);
  }

  /**
   * The shift within one job, as written: a row with two topics followed by
   * a row with three gives `topic2` the vectors `[[], t]` with levels
   * `[0, 1]`. Written as they are, the second row's `topic2` cell holds the
   * first row's empty placeholder; the row group's rows mean `t` there.
   */
  lemma TopicShiftAfterMissingTopic(r1: Row, r2: Row, g: RowGroup)
    requires |r1.log.topics| == 2 && |r2.log.topics| == 3
    requires g == AddRow(AddRow(EmptyGroup(), r1), r2)
    ensures g.topic2 == OptionalColumn([[], r2.log.topics[2]], [0, 1])
    ensures StoredAsWritten(g.topic2) == [None, Some([])]
    ensures Aligned(g) && Height(g) == 2 && ReadRow(g, 1).topics[2] == Some(r2.log.topics[2])
    ensures r2.log.topics[2] != []
  {
    TopicColumnAfterTwoRows(r1, r2);
    NullThenValueAsWritten(r2.log.topics[2]);
    var g1 := AddRow(EmptyGroup(), r1);
    assert Height(g1) == 1;
    assert ReadRow(g, 1) == ViewOf(r2);
  }

  /** The rows of a file: its row groups' rows, in order. */
  function ReadFile(file: seq<RowGroup>): seq<LogView>
    requires forall k :: 0 <= k < |file| ==> Aligned(file[k])
  {
    if file == [] then [] else ReadFile(file[..|file| - 1]) + ReadGroup(file[|file| - 1])
  }

  /** Appending a row group appends its rows to the file's rows. */
  lemma ReadFileAppend(file: seq<RowGroup>, g: RowGroup)
    requires forall k :: 0 <= k < |file| ==> Aligned(file[k])
    requires Aligned(g)
    ensures ReadFile(file + [g]) == ReadFile(file) + ReadGroup(g)
  {
    assert (file + [g])[..|file|] == file;
  }

  /** Receiving one more chunk extends the received rows by the chunk's rows. */
  lemma PayloadGrows(msgs: seq<Message>, i: nat)
    requires i < |msgs| && msgs[i].Some?
    requires forall k :: 0 <= k < i ==> msgs[k].Some?
    ensures Payload(msgs[..i + 1]) == Payload(msgs[..i]) + msgs[i].value.txs
  {
    assert msgs[..i + 1] == msgs[..i] + [msgs[i]];
    PayloadSendChunk(msgs[..i], msgs[i].value);
  }

  /** The first |file| messages are chunks, and each row group was built from its chunk. */
  predicate WrittenSoFar(file: seq<RowGroup>, msgs: seq<Message>)
  {
    && |file| <= |msgs|
    && forall k :: 0 <= k < |file| ==> msgs[k].Some? && GroupFor(file[k], msgs[k].value.txs)
  }

  /** Writing the row group of the next chunk keeps every row group matched with its chunk. */
  lemma WrittenExtends(file: seq<RowGroup>, msgs: seq<Message>, g: RowGroup)
    requires WrittenSoFar(file, msgs)
    requires |file| < |msgs| && msgs[|file|].Some? && GroupFor(g, msgs[|file|].value.txs)
    ensures WrittenSoFar(file + [g], msgs)
  {
    forall k | 0 <= k < |file| + 1 ensures msgs[k].Some? && GroupFor((file + [g])[k], msgs[k].value.txs) {
      if k < |file| {
        assert (file + [g])[k] == file[k];
      }
    }
  }

  /** One pass of the receive loop: the next chunk becomes the next row group. */
  method WriteChunk(file: seq<RowGroup>, msgs: seq<Message>) returns (file': seq<RowGroup>)
    requires WrittenSoFar(file, msgs) && |file| < |msgs| && msgs[|file|].Some?
    requires ReadFile(file) == Views(Payload(msgs[..|file|]))
    ensures |file'| == |file| + 1 && WrittenSoFar(file', msgs)
    ensures ReadFile(file') == Views(Payload(msgs[..|file'|]))
  {
    var i := |file|;
    var chunk := msgs[i].value;
    var g := BuildRowGroup(chunk.txs);
    PayloadGrows(msgs, i);
    ViewsConcat(Payload(msgs[..i]), chunk.txs);
    ReadFileAppend(file, g);
    WrittenExtends(file, msgs, g);
    file' := file + [g];
  }

  /**
   * The writer task: receive messages until a `None` arrives or the sender
   * is gone, writing one row group per chunk. The file holds one row group
   * per delivered chunk, and its rows read back as the views of the rows
   * the writer received, in order.
   */
  method RunWriter(msgs: seq<Message>) returns (file: seq<RowGroup>)
    ensures |file| == Delivered(msgs)
    ensures forall k :: 0 <= k < |file| ==> Aligned(file[k]) && Height(file[k]) == |msgs[k].value.txs|
    ensures forall k :: 0 <= k < |file| ==> ReadGroup(file[k]) == Views(msgs[k].value.txs)
    ensures ReadFile(file) == Views(Payload(msgs))
  {
    file := [];
    var i := 0;
    assert msgs[..0] == [];
    while i < |msgs|
      invariant i == |file| && WrittenSoFar(file, msgs)
      invariant ReadFile(file) == Views(Payload(msgs[..i]))
    {
      if msgs[i].None? {
        break;
      }
      file := WriteChunk(file, msgs);
      i := i + 1;
    }
    if i < |msgs| {
      assert msgs == msgs[..i] + [None] + msgs[i + 1..];
      PayloadSendTerminator(msgs[..i], msgs[i + 1..]);
    } else {
      assert msgs[..i] == msgs;
    }
  }
}

=== FILE: types.dfy ===
/**
 * The records that travel from the scanner to the column writer: a decoded
 * event log (`KvLog`), one output row per log, the chunks of rows, and the
 * messages of the channel between the two tasks.
 */
module Types {
  import opened Wrappers
  import opened BigEndian

  type u64 = n: nat | n < 0x1_0000_0000_0000_0000
  type u32 = n: nat | n < 0x1_0000_0000

  /** A 20-byte contract address. */
  type Address = s: Bytes | |s| == 20 witness seq(20, _ => 0)

  /** A 32-byte topic word. */
  type H256 = s: Bytes | |s| == 32 witness seq(32, _ => 0)

  /** One event log as the store's payload encodes it. */
  datatype KvLog = KvLog(address: Address, topics: seq<H256>, data: Option<Bytes>)

  /** One output row: the block number and transaction index of the log's key, and the log. */
  datatype Row = Row(block: u64, tx: u32, log: KvLog)

  /** A batch of rows handed from the scanner to the writer. */
  datatype LogChunk = LogChunk(txs: seq<Row>)

  /**
   * A channel message: `Some(chunk)` carries rows, `None` tells the writer to
   * close the file. The end of a message list stands for the sender being
   * dropped, which also ends the writer's receive loop.
   */
  type Message = Option<LogChunk>

  /** Number of messages the writer consumes: those before the first `None`. */
  function Delivered(msgs: seq<Message>): (n: nat)
    ensures n <= |msgs|
    ensures forall k :: 0 <= k < n ==> msgs[k].Some?
    ensures n < |msgs| ==> msgs[n].None?
  {
    if msgs == [] || msgs[0].None? then 0 else 1 + Delivered(msgs[1..])
  }

  /** The rows the writer receives, in order: the chunks before the first `None`. */
  function Payload(msgs: seq<Message>): seq<Row>
  {
    if msgs == [] then []
    else match msgs[0]
      case None => []
      case Some(c) => c.txs + Payload(msgs[1..])
  }

  /** Sending one more chunk after chunks only extends the payload by its rows. */
  lemma {:induction false} PayloadSendChunk(msgs: seq<Message>, c: LogChunk)
    requires forall k :: 0 <= k < |msgs| ==> msgs[k].Some?
    ensures Payload(msgs + [Some(c)]) == Payload(msgs) + c.txs
  {
    if msgs != [] {
      assert (msgs + [Some(c)])[1..] == msgs[1..] + [Some(c)];
      PayloadSendChunk(msgs[1..], c);
    }
  }

  /** The terminator adds nothing to the payload, nor does anything after it. */
  lemma {:induction false} PayloadSendTerminator(msgs: seq<Message>, later: seq<Message>)
    requires forall k :: 0 <= k < |msgs| ==> msgs[k].Some?
    ensures Payload(msgs + [None] + later) == Payload(msgs)
  {
    if msgs != [] {
      assert (msgs + [None] + later)[1..] == msgs[1..] + [None] + later;
      PayloadSendTerminator(msgs[1..], later);
    }
  }
}

=== FILE: wrappers.dfy ===
/** The optional value used for Rust's `Option<T>` throughout the model. */
module Wrappers {

  datatype Option<+T> = None | Some(value: T)
}
